=== FILE: README.md ===
# Next-airing overlay synchroniser — a Dafny model of its core

The synchroniser walks the show libraries of a media catalog. It asks the
Trakt tracking service for each show's status and next episode, and writes
one overlay descriptor per library: a label such as `E N D E D` or
`SEASON FINALE 12/10` with a background colour, keyed by library and show
title. For every library it seeds a collection file if one is missing. It
keeps a remote "Next Airing" list equal to the dated upcoming episodes,
sorted by air time.

This project models the decision logic of `shows_status.py` as pure
functions over explicit inputs. HTTP replies, clock readings and the
timestamp parser are given as data. The modules follow the script's
functions:

| module | models |
|---|---|
| `TokenManager` (`token_manager.dfy`) | `get_trakt_token`. The credential file is the state. The transitions are interactive authorisation, refresh, and "delete the file and retry". |
| `StatusResolver` (`status_resolver.dfy`) | `process_show`: the GUID scan and the status → label/colour decision table. |
| `OverlayWriter` (`overlay_writer.dfy`) | `create_yaml` without serialisation, plus the main loop over libraries that accumulates airing entries. |
| `CollectionBootstrap` (`collection_bootstrap.dfy`) | `create_yaml_collections_if_missing`, both as written and corrected (see Findings). |
| `AiringSort` (`airing_sort.dfy`) | `sort_airing_shows_by_date`: a stable sort by air time. |
| `ListReconciler` (`list_reconciler.dfy`) | `get_or_create_trakt_list`, `fetch_current_trakt_list_shows` and `update_trakt_list`. |
| `SyncRun` (`sync_run.dfy`) | The main block: token, overlays, collections, list lookup, sort, update. `Run` is the code as written, where seeding a missing collection file ends the run; `RunCorrected` uses the corrected seeding. |
| `Text`, `Wrappers` | The Python string operations used (`lower`, `upper`, single-character `replace`, `in`, `split('//')[1]`, `os.path.join`) and `Option`. |

Two behaviours of the code worth noting:
- **GUID scan.** `process_show` tries every GUID containing `tmdb://` in
  turn, not only the first one. A GUID whose search or show lookup fails
  is skipped, and the next one is tried (`shows_status.py:153-162`).
- **Unknown-status colour.** An unrecognised status is coloured by the
  colour-table entry for the upper-cased status itself, or white
  (`#FFFFFF`) if there is none. No `UNKNOWN` entry is consulted
  (`shows_status.py:166`).

## Model

| member | source | states |
|---|---|---|
| TokenManager.GetToken | shows_status.py:47-116 | Whatever path is taken, an issued access token is the one stored in the credential file left behind. A failed authorisation leaves no file. A call prompts for an authorisation code at most once. |
| TokenManager.RefreshStoresResponse | shows_status.py:96-104 | A successful refresh stores the endpoint's reply, stamped with `int` of the current clock when it lacks `created_at`, after exactly one refresh request. The token issued is that reply's `access_token`, and a reply without one raises. |
| TokenManager.Authorise | shows_status.py:48-73 | The no-file path prompts exactly once and never refreshes or deletes. It fails exactly when the token endpoint does not answer 200. Otherwise it stores the endpoint's reply, stamped with `int` of the clock, and issues that reply's `access_token`. |
| TokenManager.Stamp | shows_status.py:64-66 | A reply that has `created_at` is stored unchanged. One that lacks it gets `created_at` equal to the given time, and no other field changes. |
| TokenManager.Truncate | shows_status.py:66 | `int()` of a clock reading truncates toward zero: it lies within one unit of the reading, on the zero side. |
| TokenManager.Deliver | shows_status.py:116 | A token is issued exactly when the record has `access_token`, and it is that value. Otherwise the lookup raises; it never reports an authorisation failure. |
| TokenManager.RefreshAttemptedIff | shows_status.py:81-95 | A refresh is requested if and only if all of these hold: a file exists, both expiry fields are present, the clock is strictly past `created_at + expires_in - 600`, and a non-empty refresh token is stored. |
| TokenManager.StoredTokenKept | shows_status.py:81-83 | If either expiry field is missing, or the buffered expiry has not passed, the stored token is returned. The file is left as it is and no request is made. |
| TokenManager.ReauthorisedOnce | shows_status.py:105-113 | A failed refresh, or an absent or empty refresh token, deletes the file exactly once. Exactly one interactive authorisation follows the deletion. The outcome and file are those of a call without a file. |
| TokenManager.HourLongTokenExpiry | shows_status.py:81-83 | With `expires_in = 3600`, a token counts as expired exactly once the clock passes `created_at + 3000`. |
| TokenManager.FreshlyStampedNotExpiring | shows_status.py:96-104 | A refreshed credential stamped with the current clock and valid for longer than the buffer is not due for refresh at that clock. |
| StatusResolver.ResolveStatus | shows_status.py:164-218 | Every resolved show gets a label and colour, with the configured font. Any airing entry carries the show's tracking id and title. |
| StatusResolver.ResolutionFollowsVerdict | shows_status.py:164-212 | The label and colour are those of the branch chosen by an independent classification of the status and the next-episode reply. That branch can be read back from the label alone. An airing entry is appended exactly for a dated next episode. |
| StatusResolver.LabelRoundTrip | shows_status.py:165-212 | The labels of distinct branches never collide, whatever date is embedded in them. |
| StatusResolver.FixedStatusLabels | shows_status.py:164-173 | `ended` and `canceled` get fixed labels and colours. Any status other than these and `returning series` gets `UNKNOWN`, coloured by its own colour entry or white. None of these appends an airing entry. |
| StatusResolver.ReturningSeriesLabels | shows_status.py:174-212 | For a returning series: no next episode gives `R E T U R N I N G`. A next episode with no air date keeps `UNKNOWN`. A dated one gives the episode-type label plus the local date, the matching colour, and one airing entry. |
| StatusResolver.Lookup | shows_status.py:153-162 | A GUID yields a show exactly when it contains `tmdb://`, its `split('//')[1]` id is known to the search, and the show endpoint answers for the tracking id the search returns. The result is that tracking id and that show record. |
| StatusResolver.ScanGuids | shows_status.py:153-220 | A show is skipped exactly when no GUID's lookups succeed. Otherwise the first GUID whose lookups succeed decides the result. |
| StatusResolver.ResolveShow | shows_status.py:151-220 | `process_show` returns nothing exactly when no GUID's lookups succeed, and then the show is skipped with no airing entry. Otherwise the first GUID whose lookups succeed decides the result. |
| StatusResolver.FindHit | shows_status.py:153-162 | The loop stops at the first GUID whose lookups succeed, and no earlier GUID succeeds. |
| StatusResolver.ProcessShow | shows_status.py:151-220 | The loop-shaped resolution is skipped exactly when no GUID succeeds, and is otherwise decided by the first GUID that does. |
| StatusResolver.TmdbGuidHasId | shows_status.py:154-155 | Any GUID containing `tmdb://` has a second `//`-field, so that `split` never raises. |
| Text.SecondField | shows_status.py:155 | `split(sep)[1]` starts right after the first occurrence of the separator. No occurrence starts inside it, and it ends at the next occurrence or at the end of the text. It is absent exactly when the separator does not occur. |
| Text.JoinPath | shows_status.py:275 | An absolute file name replaces the directory. Otherwise the result is the directory and the file name, with a `/` between them unless the directory is empty or already ends with one. |
| Text.Lower | shows_status.py:274 | Lower-casing keeps the length, turns each upper-case letter into its lower-case form, and leaves every other character as it is. |
| Text.Upper | shows_status.py:166 | Upper-casing keeps the length, turns each lower-case letter into its upper-case form, and leaves every other character as it is. |
| Text.ReplaceChar | shows_status.py:232 | Replacing one character with another keeps the length, turns every occurrence of the first into the second, and leaves every other character as it is. |
| Text.ContainsMeansOccurs | shows_status.py:154 | `pat in s` holds exactly when `pat` occurs in `s` at some index. |
| OverlayWriter.OverlayKey | shows_status.py:232-233 | The key starts with `{library}_Status_` and continues with the title, each space turned into `_`. |
| OverlayWriter.OverlayFor | shows_status.py:234-251 | The overlay carries the resolved colour and font, the label wrapped as `text(...)`, and an exact-title search filter. |
| OverlayWriter.Assemble | shows_status.py:227-253 | Each show appends at most one airing entry. What one show contributes is `OneShowAssemble`. The keys present, the surviving entry on a collision, the airing entries accumulated and the behaviour on concatenation are stated by `OverlayKeysExact`, `LastWriterWins`, `AssembleAiringMembers` and `AssembleSplits`. |
| OverlayWriter.OneShowAssemble | shows_status.py:228-253 | A skipped show contributes nothing. A resolved show writes its overlay under its key and appends its airing entry, if it has one. With `AssembleSplits` this fixes the descriptor and the airing list of any sequence of shows. |
| OverlayWriter.AssembleAiringMembers | shows_status.py:228-253 | The accumulated airing entries are exactly those of the resolved shows. |
| OverlayWriter.BuildOverlays | shows_status.py:223-253 | Every entry of a library's descriptor is the overlay of some show of that library that resolved, under that show's key. An entry is in the library's airing list exactly when some show of the library resolves to it. There is at most one airing entry per show. |
| OverlayWriter.EntriesFromShows | shows_status.py:228-252 | Every entry is written by some resolved show, under its key, with its overlay; nothing else enters the descriptor. |
| OverlayWriter.AssembleSplits | shows_status.py:228-253 | Processing shows `a` then `b` gives the map union of the two descriptors, with later shows winning, and the concatenation of their airing entries. |
| OverlayWriter.OverlayKeysExact | shows_status.py:228-233 | A key is present exactly when some resolved show produces it. Skipped shows leave no entry. |
| OverlayWriter.LastWriterWins | shows_status.py:231-233 | A resolved show's entry survives unless a later resolved show has the same key. |
| OverlayWriter.OverlayCountBound | shows_status.py:231-233 | A descriptor has no more entries than resolved shows. |
| OverlayWriter.OverlayKeyCollision | shows_status.py:232-233 | Two titles share a key exactly when they agree once spaces become underscores. |
| OverlayWriter.SpaceUnderscoreCollision | shows_status.py:232-233 | `Show A` and `Show_A` overwrite each other's entry. |
| OverlayWriter.WriteLibraries | shows_status.py:338-340 | One descriptor is written per configured library, in order, and each is that library's own `create_yaml` descriptor. |
| OverlayWriter.LibrariesAccumulate | shows_status.py:338-340 | Each library's descriptor depends only on that library. The run-wide airing list holds every library's entries in library order, duplicates included. |
| OverlayWriter.OneLibraryAiring | shows_status.py:338-340 | For one library, the run-wide airing list is exactly the entries its shows appended. With `LibrariesAccumulate` this fixes the list for any number of libraries. |
| CollectionBootstrap.CollectionFileName | shows_status.py:274 | The collection file name is the library name with each upper-case letter replaced by its lower-case form and each space by `-`, every other character kept, followed by `-next-airing.yml`. |
| CollectionBootstrap.TvShowsFileName | shows_status.py:274 | The collection file for `TV Shows` is `tv-shows-next-airing.yml`. |
| CollectionBootstrap.EnsureOne | shows_status.py:275-285 | After processing a library it has a file. Existing files keep their content, and only that library's path is added. |
| CollectionBootstrap.EnsureCollections | shows_status.py:271-285 | The corrected seeding keeps every existing file and its content, and every file it adds is seeded for a library. `EnsureCollectionsSeeds` adds that every library ends with a file at its own path. |
| CollectionBootstrap.EnsureCollectionsSeeds | shows_status.py:271-285 | After the corrected seeding, every library has a file and existing files are untouched. Each new file is some library's path, seeded for that library. |
| CollectionBootstrap.EnsureNoOpWhenPresent | shows_status.py:277-285 | When every library already has a file, nothing is written. |
| CollectionBootstrap.EnsureCollectionsIdempotent | shows_status.py:271-285 | Seeding twice gives the same files as seeding once. |
| CollectionBootstrap.MissingField | shows_status.py:260-269 | `format` with keyword arguments fails exactly when some replacement field is not a keyword, and reports such a field. |
| CollectionBootstrap.MissingFieldIsConfig | shows_status.py:260-263 | The template's first field that `format(library_name=...)` cannot fill is `config`. |
| CollectionBootstrap.SeedLoop | shows_status.py:272-285 | The loop as written, for any formatting outcome: existing files are kept. If it raises, it raises the formatting error, and the only change is one new empty file. If it does not, every library has a file. |
| CollectionBootstrap.EnsureCollectionsAsWritten | shows_status.py:271-285 | As written, existing files keep their content. An error raised is the template's missing field, and the only change it leaves behind is one new empty file. Without an error, every library has a file. |
| CollectionBootstrap.SeedLoopCrashState | shows_status.py:272-282 | When formatting fails, the loop stops at the first library without a file. That file is added empty, and no other file is added or changed. |
| CollectionBootstrap.AsWrittenLeavesEmptyFile | shows_status.py:272-282 | As written, the first library without a file gets an empty file. No other file is written, and the run stops with `KeyError('config')`. |
| CollectionBootstrap.AsWrittenNotIdempotent | shows_status.py:278-282 | As written, a second run over two new libraries changes the files again and fails again. |
| CollectionBootstrap.AsWrittenNoOpWhenPresent | shows_status.py:277-285 | As written, when every library already has a file, nothing is written and nothing is raised. |
| CollectionBootstrap.AsWrittenFailsWhenMissing | shows_status.py:278-282 | As written, any library without a file makes the run raise `KeyError('config')`. |
| AiringSort.Insert | shows_status.py:287-288 | Inserting an entry adds exactly that entry. |
| AiringSort.SortByAirTime | shows_status.py:287-288 | Sorting permutes the airing entries. |
| AiringSort.InsertKeepsSorted | shows_status.py:288 | Inserting into a list ordered by air time keeps it ordered. |
| AiringSort.InsertIsStable | shows_status.py:288 | An inserted entry goes before every entry with the same air time, whose order is kept. That is what stability needs when entries are inserted from the back. |
| AiringSort.SortIsStableAscending | shows_status.py:287-288 | The sorted list ascends by air time. Entries with the same air time keep their input order. |
| AiringSort.StableOrderUnique | shows_status.py:288 | Two lists, both ordered by air time and agreeing at every instant, are equal. |
| AiringSort.SortIsTheStableSort | shows_status.py:287-288 | Every stable ascending ordering of the entries, Python's `sorted` among them, equals the computed one. |
| ListReconciler.FindList | shows_status.py:131-135 | The slug returned is that of the first list whose name matches ignoring case. Nothing is returned exactly when no name matches. |
| ListReconciler.GetOrCreateList | shows_status.py:127-148 | A found slug comes from a search that matched. Every earlier pass found nothing and had its creation accepted. Failure means some pass found nothing and its creation was rejected. |
| ListReconciler.GetOrCreateListDecided | shows_status.py:131-148 | After passes that each missed and had their creation accepted, a match at the next pass is the result, after that many creations. A miss whose creation is rejected gives the failure. |
| ListReconciler.GetOrCreateListExhausted | shows_status.py:144-146 | When every supplied pass misses and has its creation accepted, the lookup runs out of passes without an answer. |
| ListReconciler.ExistingListReused | shows_status.py:131-135 | A list that is already visible is returned with no creation request. |
| ListReconciler.ShowIds | shows_status.py:297 | An id is extracted exactly when a show item with that id is on the list. Other items contribute nothing. |
| ListReconciler.UpdateList | shows_status.py:303-327 | No request is sent exactly when the fetched ids equal the desired ids, order included, and then the list is unchanged. Otherwise one removal of the fetched ids is sent, then one addition of the desired ids. Every item afterwards was already on the list or was added. |
| ListReconciler.RemovingAllShowsLeavesNone | shows_status.py:317 | Removing every fetched id leaves no show on the list. |
| ListReconciler.UpdatePublishes | shows_status.py:303-322 | When every list request succeeds, the list's shows equal the desired ids in order. |
| ListReconciler.ListEqualsDesired | shows_status.py:303-322 | When the fetch succeeds and any needed removal and addition succeed, the list's shows equal the desired ids in order. |
| ListReconciler.ReconcileIdempotent | shows_status.py:303-322 | Reconciling a list that was just reconciled successfully sends nothing. |
| ListReconciler.FailedFetchAppends | shows_status.py:299-301 | A failed fetch reads as an empty list, so the desired shows are appended to whatever the list holds. |
| SyncRun.RunPublishesSortedAiring | shows_status.py:329-349 | A run that has a token, finds every collection file in place and a non-empty list slug writes one descriptor per library and changes no file. If every list request succeeds, the list then holds exactly the ids of the run's airing entries, permuted into stable air-time order. |
| SyncRun.RunStages | shows_status.py:330-349 | The run stops exactly when no token is issued. With a token it raises `KeyError` exactly when some library lacks its collection file. The crash leaves the first such file empty and every other file as it was. Otherwise the list is touched exactly when a non-empty slug is obtained. |
| SyncRun.Run | shows_status.py:329-349 | The run as written stops exactly when no token is issued. Otherwise it writes every library's descriptor and accumulates their airing entries. A seeding crash is the `config` `KeyError`, and a run that gets past seeding has changed no file. |
| SyncRun.ListStage | shows_status.py:345-349 | The list is looked up once. It is reconciled with the sorted airing entries exactly when a non-empty slug comes back. When every list request succeeds, the list then holds exactly the ids of the sorted entries. |
| SyncRun.RunCorrected | shows_status.py:329-349 | With the corrected seeding the run never crashes after the token, and every library ends with a collection file. |
| SyncRun.RunCorrectedPublishesSortedAiring | shows_status.py:329-349 | With the corrected seeding, a run with a token and a non-empty list slug whose list requests all succeed publishes exactly the ids of the airing entries in stable air-time order, whether or not the collection files existed. |

## Left out

- HTTP, files, prompts and logging: every request, reply, prompt and log line is an input or is absent. Only effects that matter to the decisions are recorded: the credential file, the token trace, the collection files and the list contents.
- `get_user_slug` (`shows_status.py:119-125`) is not modelled. The list endpoints are given as replies that already account for the user slug.
- Time, `strptime` and `pytz`: `time.time()` is a `real` input. The local `DD/MM` date comes with the next-episode reply. Sorting uses a given function from the `first_aired` text to an instant. A timestamp `strptime` would reject is not modelled.
- Text.Lower, Text.Upper: only ASCII letters change case. Python's full Unicode case mapping is not modelled.
- StatusResolver.ResolveStatus: requires the colour table to have the eight keys indexed without a default. A missing key raises `KeyError` in the source, and that crash is not modelled.
- TokenManager.GetToken: a credential whose `access_token` is missing is modelled as the `KeyError` outcome. A JSON `null` in any field is not modelled.
- Values of the wrong JSON type (a `null` status or episode type, a string `expires_in`) are not modelled.
- YAML serialisation and the output path of the overlay descriptor (`shows_status.py:255-258`) are not modelled. The descriptor is kept as a map.
- CollectionBootstrap: the rendered template text is not modelled, only which library a file was seeded for.
- `time.sleep` between list requests is left out; it does not affect the outcome.
- Messages printed after a `return` (`shows_status.py:117`, `149`, `221`) are unreachable and left out.
- ListReconciler.RemoveShowsFrom: the remote list's behaviour is an assumption. Removal drops every show with a listed id, addition appends in order, and other items stay. The contract states only the first part.
- ListReconciler.GetOrCreateList: the source's retry recursion after creating a list is unbounded. The model consumes one supplied round of replies per pass and answers `OutOfRounds` when they run out.
- The success message for a list update (`shows_status.py:323-326`) depends only on the status code and changes nothing; only success or failure of the addition is modelled.

## Findings

| source | as written | input that shows it | evidently intended | confidence | as-written member | corrected member |
|---|---|---|---|---|---|---|
| shows_status.py:260-269, 278-282 | The collection template is a plain string whose URL contains the field `{config['TRAKT_USERNAME']}`. It is formatted with `library_name` only, after the target file has been opened for writing. | A library `TV Shows` with no `tv-shows-next-airing.yml`: the file is created, `format` raises `KeyError('config')`, and the run ends. The empty file then stops every later run from seeding it. | The file is written with the rendered template for each library that lacks one, and seeding is idempotent. | not executed | CollectionBootstrap.AsWrittenLeavesEmptyFile | CollectionBootstrap.EnsureCollectionsIdempotent |

=== FILE: airing_sort.dfy ===
/** Ordering of the run's airing entries by air time
    (`sort_airing_shows_by_date`). Python's `sorted` is stable; the air time
    is the parsed `first_aired` timestamp, given here as a function from
    the timestamp text to an integer instant. */
module AiringSort {
  import opened StatusResolver

  /** Air times never decrease along `s`. */
  ghost predicate SortedByAirTime(s: seq<AiringEntry>, airTime: string -> int) {
    forall i, j :: 0 <= i < j < |s| ==> airTime(s[i].firstAired) <= airTime(s[j].firstAired)
  }

  /** The entries of `s` airing at instant `t`, in their order in `s`. */
  function AiringAt(s: seq<AiringEntry>, airTime: string -> int, t: int): seq<AiringEntry> {
    if s == [] then []
    else (if airTime(s[0].firstAired) == t then [s[0]] else []) + AiringAt(s[1..], airTime, t)
  }

  /** `e` placed before the first entry of `s` that airs no earlier. */
  function Insert(e: AiringEntry, s: seq<AiringEntry>, airTime: string -> int): (r: seq<AiringEntry>)
    ensures |r| == |s| + 1
    ensures multiset(r) == multiset(s) + multiset{e}
  {
    if s == [] || airTime(e.firstAired) <= airTime(s[0].firstAired) then [e] + s
    else
      assert s == [s[0]] + s[1..];
      [s[0]] + Insert(e, s[1..], airTime)
  }

  /** An entry airing no later than every entry of a sorted sequence can
      be put in front of it. */
  lemma ConsSorted(x: AiringEntry, s: seq<AiringEntry>, airTime: string -> int)
    requires SortedByAirTime(s, airTime)
    requires forall j :: 0 <= j < |s| ==> airTime(x.firstAired) <= airTime(s[j].firstAired)
    ensures SortedByAirTime([x] + s, airTime)
  {
    var r := [x] + s;
    forall i, j | 0 <= i < j < |r|
      ensures airTime(r[i].firstAired) <= airTime(r[j].firstAired)
    {
      assert r[j] == s[j - 1];
      if i > 0 {
        assert r[i] == s[i - 1];
      }
    }
  }

  /** Inserting into a sequence sorted by air time keeps it sorted. */
  lemma {:induction false} InsertKeepsSorted(e: AiringEntry, s: seq<AiringEntry>, airTime: string -> int)
    requires SortedByAirTime(s, airTime)
    ensures SortedByAirTime(Insert(e, s, airTime), airTime)
  {
    if s == [] || airTime(e.firstAired) <= airTime(s[0].firstAired) {
      forall j | 0 <= j < |s|
        ensures airTime(e.firstAired) <= airTime(s[j].firstAired)
      {
        FirstAirsFirst(s, airTime, s[j]);
      }
      ConsSorted(e, s, airTime);
    } else {
      var tail := s[1..];
      assert SortedByAirTime(tail, airTime);
      InsertKeepsSorted(e, tail, airTime);
      var rest := Insert(e, tail, airTime);
      forall j | 0 <= j < |rest|
        ensures airTime(s[0].firstAired) <= airTime(rest[j].firstAired)
      {
        assert rest[j] in multiset(rest);
        if rest[j] != e {
          assert rest[j] in multiset(tail);
          FirstAirsFirst(s, airTime, rest[j]);
        }
      }
      ConsSorted(s[0], rest, airTime);
    }
  }

  /** The per-instant subsequence of a sequence with a given first entry. */
  lemma AiringAtCons(x: AiringEntry, s: seq<AiringEntry>, airTime: string -> int, t: int)
    ensures AiringAt([x] + s, airTime, t) == (if airTime(x.firstAired) == t then [x] else []) + AiringAt(s, airTime, t)
  {
    assert ([x] + s)[0] == x && ([x] + s)[1..] == s;
  }

  /** The per-instant subsequence of a non-empty sequence, one step unfolded. */
  lemma AiringAtUnfold(s: seq<AiringEntry>, airTime: string -> int, t: int)
    requires s != []
    ensures AiringAt(s, airTime, t) == (if airTime(s[0].firstAired) == t then [s[0]] else []) + AiringAt(s[1..], airTime, t)
  {
  }

  /** Inserting `e` puts it before every entry airing at the same instant:
      the entries of each instant keep their order, `e` first among its own,
      which is what stability needs when inserting from the back. */
  lemma {:induction false} InsertIsStable(e: AiringEntry, s: seq<AiringEntry>, airTime: string -> int, t: int)
    ensures AiringAt(Insert(e, s, airTime), airTime, t) ==
      (if airTime(e.firstAired) == t then [e] else []) + AiringAt(s, airTime, t)
    decreases |s|
  {
    if s == [] || airTime(e.firstAired) <= airTime(s[0].firstAired) {
      assert Insert(e, s, airTime) == [e] + s;
      AiringAtCons(e, s, airTime, t);
    } else {
      InsertIsStable(e, s[1..], airTime, t);
      InsertLaterStable(e, s, airTime, t);
    }
  }

  /** The step of `InsertIsStable` where `e` airs after the head of `s`. */
  lemma InsertLaterStable(e: AiringEntry, s: seq<AiringEntry>, airTime: string -> int, t: int)
    requires s != [] && airTime(e.firstAired) > airTime(s[0].firstAired)
    requires AiringAt(Insert(e, s[1..], airTime), airTime, t) ==
      (if airTime(e.firstAired) == t then [e] else []) + AiringAt(s[1..], airTime, t)
    ensures AiringAt(Insert(e, s, airTime), airTime, t) ==
      (if airTime(e.firstAired) == t then [e] else []) + AiringAt(s, airTime, t)
  {
    var rest := Insert(e, s[1..], airTime);
    var own := if airTime(e.firstAired) == t then [e] else [];
    var head := if airTime(s[0].firstAired) == t then [s[0]] else [];
    InsertLaterUnfold(e, s, airTime);
    AiringAtCons(s[0], rest, airTime, t);
    AiringAtUnfold(s, airTime, t);
    SwapDisjoint(head, own, AiringAt(s[1..], airTime, t));
  }

  /** Inserting past the head keeps the head in front. */
  lemma InsertLaterUnfold(e: AiringEntry, s: seq<AiringEntry>, airTime: string -> int)
    requires s != [] && airTime(e.firstAired) > airTime(s[0].firstAired)
    ensures Insert(e, s, airTime) == [s[0]] + Insert(e, s[1..], airTime)
  {
  }

  lemma SwapDisjoint<T>(a: seq<T>, b: seq<T>, c: seq<T>)
    requires a == [] || b == []
    ensures a + (b + c) == b + (a + c)
  {
    if a == [] {
      assert a + (b + c) == b + c;
    } else {
      assert b + (a + c) == a + c;
    }
  }

  /** `sorted(airing_shows, key=first_aired)` by insertion from the back. */
  function SortByAirTime(s: seq<AiringEntry>, airTime: string -> int): (r: seq<AiringEntry>)
    ensures multiset(r) == multiset(s)
  {
    if s == [] then []
    else
      assert s == [s[0]] + s[1..];
      Insert(s[0], SortByAirTime(s[1..], airTime), airTime)
  }

  /** The result is ascending by air time, and stable: the entries sharing
      an air time keep their input order. */
  lemma {:induction false} SortIsStableAscending(s: seq<AiringEntry>, airTime: string -> int)
    ensures SortedByAirTime(SortByAirTime(s, airTime), airTime)
    ensures forall t :: AiringAt(SortByAirTime(s, airTime), airTime, t) == AiringAt(s, airTime, t)
  {
    if s != [] {
      SortIsStableAscending(s[1..], airTime);
      InsertKeepsSorted(s[0], SortByAirTime(s[1..], airTime), airTime);
      forall t
        ensures AiringAt(SortByAirTime(s, airTime), airTime, t) == AiringAt(s, airTime, t)
      {
        InsertIsStable(s[0], SortByAirTime(s[1..], airTime), airTime, t);
      }
    }
  }

  /** Membership in the per-instant subsequence. */
  lemma {:induction false} AiringAtMembers(s: seq<AiringEntry>, airTime: string -> int, t: int, x: AiringEntry)
    ensures x in AiringAt(s, airTime, t) <==> x in s && airTime(x.firstAired) == t
  {
    if s != [] {
      AiringAtMembers(s[1..], airTime, t, x);
      assert s == [s[0]] + s[1..];
    }
  }

  /** The first entry of a sorted sequence airs no later than any other. */
  lemma FirstAirsFirst(s: seq<AiringEntry>, airTime: string -> int, x: AiringEntry)
    requires SortedByAirTime(s, airTime) && x in s
    ensures airTime(s[0].firstAired) <= airTime(x.firstAired)
  {
    var j :| 0 <= j < |s| && s[j] == x;
    if j > 0 {
      assert airTime(s[0].firstAired) <= airTime(s[j].firstAired);
    }
  }

  /** The first entry of `r1` also airs in `r2`, so `r2` starts no later. */
  lemma HeadNotBefore(r1: seq<AiringEntry>, r2: seq<AiringEntry>, airTime: string -> int)
    requires r1 != [] && r2 != []
    requires SortedByAirTime(r2, airTime)
    requires AiringAt(r1, airTime, airTime(r1[0].firstAired)) == AiringAt(r2, airTime, airTime(r1[0].firstAired))
    ensures airTime(r2[0].firstAired) <= airTime(r1[0].firstAired)
  {
    var t1 := airTime(r1[0].firstAired);
    AiringAtUnfold(r1, airTime, t1);
    assert r1[0] in AiringAt(r2, airTime, t1);
    AiringAtMembers(r2, airTime, t1, r1[0]);
    FirstAirsFirst(r2, airTime, r1[0]);
  }

  /** Two non-empty sorted sequences with the same entries at every instant
      start with the same entry, and their tails again agree at every instant. */
  lemma SameHead(r1: seq<AiringEntry>, r2: seq<AiringEntry>, airTime: string -> int)
    requires r1 != [] && r2 != []
    requires SortedByAirTime(r1, airTime) && SortedByAirTime(r2, airTime)
    requires forall t :: AiringAt(r1, airTime, t) == AiringAt(r2, airTime, t)
    ensures r1[0] == r2[0]
    ensures forall t :: AiringAt(r1[1..], airTime, t) == AiringAt(r2[1..], airTime, t)
  {
    HeadNotBefore(r1, r2, airTime);
    HeadNotBefore(r2, r1, airTime);
    SameHeadRest(r1, r2, airTime);
  }

  /** Sequences agreeing at every instant whose heads air together have
      the same head and tails that agree at every instant. */
  lemma SameHeadRest(r1: seq<AiringEntry>, r2: seq<AiringEntry>, airTime: string -> int)
    requires r1 != [] && r2 != []
    requires airTime(r1[0].firstAired) == airTime(r2[0].firstAired)
    requires forall t :: AiringAt(r1, airTime, t) == AiringAt(r2, airTime, t)
    ensures r1[0] == r2[0]
    ensures forall t :: AiringAt(r1[1..], airTime, t) == AiringAt(r2[1..], airTime, t)
  {
    HeadAgrees(r1, r2, airTime);
    forall t
      ensures AiringAt(r1[1..], airTime, t) == AiringAt(r2[1..], airTime, t)
    {
      TailAgreesAt(r1, r2, airTime, t);
    }
  }

  /** Agreement at the instant of the heads forces equal heads. */
  lemma HeadAgrees(r1: seq<AiringEntry>, r2: seq<AiringEntry>, airTime: string -> int)
    requires r1 != [] && r2 != []
    requires airTime(r1[0].firstAired) == airTime(r2[0].firstAired)
    requires AiringAt(r1, airTime, airTime(r1[0].firstAired)) == AiringAt(r2, airTime, airTime(r1[0].firstAired))
    ensures r1[0] == r2[0]
  {
    var t1 := airTime(r1[0].firstAired);
    AiringAtUnfold(r1, airTime, t1);
    AiringAtUnfold(r2, airTime, t1);
    assert AiringAt(r1, airTime, t1)[0] == r1[0];
    assert AiringAt(r2, airTime, t1)[0] == r2[0];
  }

  /** With equal heads, agreement at an instant carries over to the tails. */
  lemma TailAgreesAt(r1: seq<AiringEntry>, r2: seq<AiringEntry>, airTime: string -> int, t: int)
    requires r1 != [] && r2 != [] && r1[0] == r2[0]
    requires AiringAt(r1, airTime, t) == AiringAt(r2, airTime, t)
    ensures AiringAt(r1[1..], airTime, t) == AiringAt(r2[1..], airTime, t)
  {
    AiringAtUnfold(r1, airTime, t);
    AiringAtUnfold(r2, airTime, t);
    var head := if airTime(r1[0].firstAired) == t then [r1[0]] else [];
    var a1 := AiringAt(r1[1..], airTime, t);
    var a2 := AiringAt(r2[1..], airTime, t);
    assert head + a1 == head + a2;
    assert (head + a1)[|head|..] == a1;
    assert (head + a2)[|head|..] == a2;
  }

  /** The first entry of a non-empty sequence airs at its own instant. */
  lemma FirstHasCompany(s: seq<AiringEntry>, airTime: string -> int)
    requires s != []
    ensures AiringAt(s, airTime, airTime(s[0].firstAired)) != []
  {
  }

  /** A stable sort has exactly one possible outcome: two sequences sorted
      by air time with the same entries at every instant, in the same
      order, are equal. */
  lemma {:induction false} StableOrderUnique(r1: seq<AiringEntry>, r2: seq<AiringEntry>, airTime: string -> int)
    requires SortedByAirTime(r1, airTime) && SortedByAirTime(r2, airTime)
    requires forall t :: AiringAt(r1, airTime, t) == AiringAt(r2, airTime, t)
    ensures r1 == r2
    decreases |r1|
  {
    if r1 == [] || r2 == [] {
      if r1 != [] {
        FirstHasCompany(r1, airTime);
      } else if r2 != [] {
        FirstHasCompany(r2, airTime);
      }
    } else {
      SameHead(r1, r2, airTime);
      StableOrderUnique(r1[1..], r2[1..], airTime);
      assert r1 == [r1[0]] + r1[1..];
      assert r2 == [r2[0]] + r2[1..];
    }
  }

  /** Any stable ascending ordering of the entries — in particular the one
      Python's `sorted` produces — is the one computed here. */
  lemma SortIsTheStableSort(s: seq<AiringEntry>, out: seq<AiringEntry>, airTime: string -> int)
    requires SortedByAirTime(out, airTime)
    requires forall t :: AiringAt(out, airTime, t) == AiringAt(s, airTime, t)
    ensures out == SortByAirTime(s, airTime)
  {
    SortIsStableAscending(s, airTime);
    StableOrderUnique(out, SortByAirTime(s, airTime), airTime);
  }
}

=== FILE: collection_bootstrap.dfy ===
/** Per-library collection file seeding (`create_yaml_collections_if_missing`):
    the file name is derived from the library name and the file is written
    only when no file exists at its path. The collections directory is a
    map from path to content; the rendered template text is not modelled,
    only which library a file was seeded for. */
module CollectionBootstrap {
  import opened Wrappers
  import opened Text

  const CollectionSuffix: string := "-next-airing.yml"

  /** What a collection file holds: the template rendered for a library,
      or nothing (a file opened for writing and never written). */
  datatype Content = Seeded(library: string) | Empty

  type Files = map<string, Content>

  /** `library_name.lower().replace(' ', '-') + "-next-airing.yml"`. */
  function CollectionFileName(library: string): (n: string)
    ensures |n| == |library| + |CollectionSuffix|
    ensures n[|library|..] == CollectionSuffix
    ensures forall i :: 0 <= i < |library| ==> n[i] != ' ' && !('A' <= n[i] <= 'Z')
    ensures forall i :: 0 <= i < |library| && library[i] == ' ' ==> n[i] == '-'
    ensures forall i :: 0 <= i < |library| && library[i] != ' ' && !('A' <= library[i] <= 'Z') ==> n[i] == library[i]
    ensures forall i :: 0 <= i < |library| && 'A' <= library[i] <= 'Z' ==> n[i] == (library[i] as int + 32) as char
  {
    ReplaceChar(Lower(library), ' ', '-') + CollectionSuffix
  }

  function CollectionPath(dir: string, library: string): string {
    JoinPath(dir, CollectionFileName(library))
  }

  /** One library: seed its file unless a file is already at its path. */
  function EnsureOne(dir: string, library: string, files: Files): (r: Files)
    ensures CollectionPath(dir, library) in r
    ensures forall p :: p in files ==> p in r && r[p] == files[p]
    ensures forall p :: p in r && p !in files ==> p == CollectionPath(dir, library) && r[p] == Seeded(library)
  {
    var path := CollectionPath(dir, library);
    if path in files then files else files[path := Seeded(library)]
  }

  /** The libraries in order, each seeded if missing. */
  function EnsureCollections(dir: string, libraries: seq<string>, files: Files): (r: Files)
    ensures forall p :: p in files ==> p in r && r[p] == files[p]
    ensures forall p :: p in r && p !in files ==> r[p].Seeded?
    decreases |libraries|
  {
    if libraries == [] then files
    else EnsureCollections(dir, libraries[1..], EnsureOne(dir, libraries[0], files))
  }

  /** Afterwards every library has a file; files that existed keep their
      content; every new file is the collection file of some library and
      was seeded for a library with that path. */
  lemma {:induction false} EnsureCollectionsSeeds(dir: string, libraries: seq<string>, files: Files)
    ensures var r := EnsureCollections(dir, libraries, files);
      && (forall i :: 0 <= i < |libraries| ==> CollectionPath(dir, libraries[i]) in r)
      && (forall p :: p in files ==> p in r && r[p] == files[p])
      && (forall p :: p in r && p !in files ==> exists i ::
            0 <= i < |libraries| && p == CollectionPath(dir, libraries[i]) && r[p] == Seeded(libraries[i]))
    decreases |libraries|
  {
    if libraries != [] {
      var once := EnsureOne(dir, libraries[0], files);
      EnsureCollectionsSeeds(dir, libraries[1..], once);
      var r := EnsureCollections(dir, libraries, files);
      forall i | 0 <= i < |libraries|
        ensures CollectionPath(dir, libraries[i]) in r
      {
        if i > 0 {
          assert libraries[i] == libraries[1..][i - 1];
        }
      }
      forall p | p in r && p !in files
        ensures exists i :: 0 <= i < |libraries| && p == CollectionPath(dir, libraries[i]) && r[p] == Seeded(libraries[i])
      {
        if p !in once {
          var i :| 0 <= i < |libraries[1..]| && p == CollectionPath(dir, libraries[1..][i]) && r[p] == Seeded(libraries[1..][i]);
          assert libraries[1..][i] == libraries[i + 1];
        }
      }
    }
  }

  /** When every library already has a file, nothing is written. */
  lemma {:induction false} EnsureNoOpWhenPresent(dir: string, libraries: seq<string>, files: Files)
    requires forall i :: 0 <= i < |libraries| ==> CollectionPath(dir, libraries[i]) in files
    ensures EnsureCollections(dir, libraries, files) == files
    decreases |libraries|
  {
    if libraries != [] {
      assert forall i :: 0 <= i < |libraries[1..]| ==> libraries[1..][i] == libraries[i + 1];
      EnsureNoOpWhenPresent(dir, libraries[1..], files);
    }
  }

  /** Seeding twice is seeding once: a second run leaves the existing files
      and their contents unchanged. */
  lemma EnsureCollectionsIdempotent(dir: string, libraries: seq<string>, files: Files)
    ensures var once := EnsureCollections(dir, libraries, files);
      EnsureCollections(dir, libraries, once) == once
  {
    EnsureCollectionsSeeds(dir, libraries, files);
    EnsureNoOpWhenPresent(dir, libraries, EnsureCollections(dir, libraries, files));
  }

  // ---------------------------------------------------------------------
  // The source as written

  /** The replacement fields of the collection template in order: the
      library name in the collection title, and the configured user name in
      the list URL, which `str.format` reads as the keyword `config`. */
  const TemplateFields: seq<string> := ["library_name", "config"]

  /** The keywords the source passes to `format`. */
  const FormatKeywords: set<string> := {"library_name"}

  /** `str.format` with keyword arguments only: the first field whose name
      is not a keyword raises `KeyError`. */
  function MissingField(fields: seq<string>, keywords: set<string>): (r: Option<string>)
    ensures r.None? <==> forall i :: 0 <= i < |fields| ==> fields[i] in keywords
    ensures r.Some? ==> r.value in fields && r.value !in keywords
  {
    if fields == [] then None
    else if fields[0] !in keywords then Some(fields[0])
    else MissingField(fields[1..], keywords)
  }

  /** Outcome of the as-written seeding: the files, and the `KeyError` that
      ended the run, if one did. */
  datatype SeedRun = SeedRun(files: Files, keyError: Option<string>)

  /** The loop of the source as written, given what formatting the
      template yields (it depends on the template's fields alone): each
      missing file is opened for writing, so it exists, empty, before the
      template is formatted; a formatting error aborts the whole run. */
  function SeedLoop(dir: string, libraries: seq<string>, files: Files, formatError: Option<string>): (r: SeedRun)
    ensures forall p :: p in files ==> p in r.files && r.files[p] == files[p]
    ensures r.keyError.Some? ==> r.keyError == formatError
    ensures r.keyError.Some? ==> exists p :: p !in files && r.files == files[p := Empty]
    ensures r.keyError.None? ==> forall i :: 0 <= i < |libraries| ==> CollectionPath(dir, libraries[i]) in r.files
    decreases |libraries|
  {
    if libraries == [] then SeedRun(files, None)
    else
      var path := CollectionPath(dir, libraries[0]);
      if path in files then SeedLoop(dir, libraries[1..], files, formatError)
      else
        var truncated := files[path := Empty];
        match formatError
        case Some(key) => SeedRun(truncated, Some(key))
        case None => SeedLoop(dir, libraries[1..], truncated[path := Seeded(libraries[0])], formatError)
  }

  /** The source as written: the template's `config` field is not among
      the keywords, so formatting always fails. */
  function EnsureCollectionsAsWritten(dir: string, libraries: seq<string>, files: Files): (r: SeedRun)
    ensures forall p :: p in files ==> p in r.files && r.files[p] == files[p]
    ensures r.keyError.Some? ==> r.keyError == MissingField(TemplateFields, FormatKeywords)
    ensures r.keyError.Some? ==> exists p :: p !in files && r.files == files[p := Empty]
    ensures r.keyError.None? ==> forall i :: 0 <= i < |libraries| ==> CollectionPath(dir, libraries[i]) in r.files
  {
    SeedLoop(dir, libraries, files, MissingField(TemplateFields, FormatKeywords))
  }

  /** Library `k` is the first one without a collection file. */
  predicate FirstMissingAt(dir: string, libraries: seq<string>, files: Files, k: int) {
    && 0 <= k < |libraries|
    && CollectionPath(dir, libraries[k]) !in files
    && forall j :: 0 <= j < k ==> CollectionPath(dir, libraries[j]) in files
  }

  /** The first library at or after `from` without a collection file. */
  function FirstMissing(dir: string, libraries: seq<string>, files: Files, from: nat): (r: Option<nat>)
    ensures r.None? ==> forall i :: from <= i < |libraries| ==> CollectionPath(dir, libraries[i]) in files
    ensures r.Some? ==> from <= r.value < |libraries| && CollectionPath(dir, libraries[r.value]) !in files
    ensures r.Some? ==> forall j :: from <= j < r.value ==> CollectionPath(dir, libraries[j]) in files
    decreases |libraries| - from
  {
    if from >= |libraries| then None
    else if CollectionPath(dir, libraries[from]) !in files then Some(from)
    else FirstMissing(dir, libraries, files, from + 1)
  }

  /** A failing loop stops at the first library without a file: that file,
      and no other, is added, empty. */
  lemma {:induction false} SeedLoopCrashState(dir: string, libraries: seq<string>, files: Files, key: string, k: int)
    requires FirstMissingAt(dir, libraries, files, k)
    ensures SeedLoop(dir, libraries, files, Some(key))
      == SeedRun(files[CollectionPath(dir, libraries[k]) := Empty], Some(key))
    decreases k
  {
    if k > 0 {
      assert CollectionPath(dir, libraries[0]) in files;
      assert libraries[1..][k - 1] == libraries[k];
      assert forall j :: 0 <= j < k - 1 ==> libraries[1..][j] == libraries[j + 1];
      SeedLoopCrashState(dir, libraries[1..], files, key, k - 1);
    }
  }

  /** As written, the first library without a collection file gets an empty
      one, nothing else is written, and the run stops with `KeyError('config')`. */
  lemma AsWrittenLeavesEmptyFile(dir: string, libraries: seq<string>, files: Files, k: int)
    requires FirstMissingAt(dir, libraries, files, k)
    ensures EnsureCollectionsAsWritten(dir, libraries, files)
      == SeedRun(files[CollectionPath(dir, libraries[k]) := Empty], Some("config"))
  {
    MissingFieldIsConfig();
    SeedLoopCrashState(dir, libraries, files, "config", k);
  }

  /** As written, seeding is not idempotent: with two new libraries, the
      second run writes a file the first did not. */
  lemma AsWrittenNotIdempotent(dir: string, a: string, b: string, files: Files)
    requires CollectionPath(dir, a) != CollectionPath(dir, b)
    requires CollectionPath(dir, a) !in files && CollectionPath(dir, b) !in files
    ensures var first := EnsureCollectionsAsWritten(dir, [a, b], files);
      var second := EnsureCollectionsAsWritten(dir, [a, b], first.files);
      second.files != first.files && second.keyError == Some("config")
  {
    var pa := CollectionPath(dir, a);
    var pb := CollectionPath(dir, b);
    AsWrittenLeavesEmptyFile(dir, [a, b], files, 0);
    var first := files[pa := Empty];
    AsWrittenLeavesEmptyFile(dir, [a, b], first, 1);
    assert pb !in first;
  }

  /** As written, when every library already has a file nothing is
      written and no error is raised. */
  lemma AsWrittenNoOpWhenPresent(dir: string, libraries: seq<string>, files: Files)
    requires forall i :: 0 <= i < |libraries| ==> CollectionPath(dir, libraries[i]) in files
    ensures EnsureCollectionsAsWritten(dir, libraries, files) == SeedRun(files, None)
    decreases |libraries|
  {
    SeedLoopNoOpWhenPresent(dir, libraries, files, MissingField(TemplateFields, FormatKeywords));
  }

  lemma {:induction false} SeedLoopNoOpWhenPresent(dir: string, libraries: seq<string>, files: Files, formatError: Option<string>)
    requires forall i :: 0 <= i < |libraries| ==> CollectionPath(dir, libraries[i]) in files
    ensures SeedLoop(dir, libraries, files, formatError) == SeedRun(files, None)
    decreases |libraries|
  {
    if libraries != [] {
      assert forall i :: 0 <= i < |libraries[1..]| ==> libraries[1..][i] == libraries[i + 1];
      SeedLoopNoOpWhenPresent(dir, libraries[1..], files, formatError);
    }
  }

  /** The loop writes a file only on its way to a formatting error. */
  lemma {:induction false} SeedLoopWritesOnlyOnError(dir: string, libraries: seq<string>, files: Files, key: string)
    ensures SeedLoop(dir, libraries, files, Some(key)).keyError.None? ==>
      SeedLoop(dir, libraries, files, Some(key)).files == files
    decreases |libraries|
  {
    if libraries != [] && CollectionPath(dir, libraries[0]) in files {
      SeedLoopWritesOnlyOnError(dir, libraries[1..], files, key);
    }
  }

  /** As written, any library without a file ends the run with
      `KeyError('config')`. */
  lemma AsWrittenFailsWhenMissing(dir: string, libraries: seq<string>, files: Files, k: int)
    requires 0 <= k < |libraries| && CollectionPath(dir, libraries[k]) !in files
    ensures EnsureCollectionsAsWritten(dir, libraries, files).keyError == Some("config")
  {
    assert MissingField(TemplateFields, FormatKeywords) == Some("config");
    SeedLoopFailsWhenMissing(dir, libraries, files, "config", k);
  }

  lemma {:induction false} SeedLoopFailsWhenMissing(dir: string, libraries: seq<string>, files: Files, key: string, k: int)
    requires 0 <= k < |libraries| && CollectionPath(dir, libraries[k]) !in files
    ensures SeedLoop(dir, libraries, files, Some(key)).keyError == Some(key)
    decreases |libraries|
  {
    if CollectionPath(dir, libraries[0]) in files {
      assert k > 0;
      assert libraries[1..][k - 1] == libraries[k];
      SeedLoopFailsWhenMissing(dir, libraries[1..], files, key, k - 1);
    }
  }

  /** The template's first field unknown to `format` is `config`. */
  lemma MissingFieldIsConfig()
    ensures MissingField(TemplateFields, FormatKeywords) == Some("config")
  {
    assert TemplateFields[0] in FormatKeywords;
  }

  /** When the as-written seeding raises nothing, it wrote nothing. */
  lemma AsWrittenUnchangedUnlessError(dir: string, libraries: seq<string>, files: Files)
    ensures EnsureCollectionsAsWritten(dir, libraries, files).keyError.None? ==>
      EnsureCollectionsAsWritten(dir, libraries, files).files == files
  {
    MissingFieldIsConfig();
    SeedLoopWritesOnlyOnError(dir, libraries, files, "config");
  }

  /** The collection file of the library "TV Shows". */
  lemma TvShowsFileName()
    ensures CollectionFileName("TV Shows") == "tv-shows-next-airing.yml"
  {
    LowerTvShows();
    DashTvShows();
  }

  lemma LowerTvShows()
    ensures Lower("TV Shows") == "tv shows"
  {
  }

  lemma DashTvShows()
    ensures ReplaceChar("tv shows", ' ', '-') == "tv-shows"
  {
  }
}

=== FILE: list_reconciler.dfy ===
/** The remote "next airing" list: finding it by name (creating it when it
    is missing), and replacing its contents with the sorted airing entries
    unless they already match (`get_or_create_trakt_list`,
    `fetch_current_trakt_list_shows`, `update_trakt_list`). Every remote
    reply is a parameter. */
module ListReconciler {
  import opened Wrappers
  import opened Text
  import opened StatusResolver

  /** One of the user's lists, as returned by `GET /users/{slug}/lists`. */
  datatype ListInfo = ListInfo(name: string, slug: string)

  /** The replies seen in one pass of `get_or_create_trakt_list`: the
      listing (`None` for a non-200 reply) and whether the creation request
      that follows an unsuccessful search was accepted (200 or 201). */
  datatype ListRound = ListRound(listing: Option<seq<ListInfo>>, createAccepted: bool)

  datatype ListLookup =
    | Found(slug: string, created: nat)   // slug, and how many creation requests preceded it
    | CreateFailed
    | OutOfRounds                         // the environment supplied no further pass

  /** An item of the remote list: a show (by tracking id) or anything else. */
  datatype ListItem = ShowItem(traktId: int) | OtherItem

  /** A mutating request sent to the list. */
  datatype Mutation = RemoveShows(ids: seq<int>) | AddShows(ids: seq<int>)

  /** Whether each list request succeeds: the item fetch (200), the bulk
      removal, and the bulk addition. */
  datatype ListReplies = ListReplies(fetchOk: bool, removeOk: bool, addOk: bool)

  /** The requests sent and the remote list afterwards. */
  datatype UpdateRun = UpdateRun(calls: seq<Mutation>, after: seq<ListItem>)

  /** Case-insensitive name equality. */
  predicate SameName(a: string, b: string) {
    Lower(a) == Lower(b)
  }

  /** The slug of the first list whose name matches, ignoring case. */
  function FindList(lists: seq<ListInfo>, name: string): (r: Option<string>)
    ensures r.None? <==> forall i :: 0 <= i < |lists| ==> !SameName(lists[i].name, name)
    ensures r.Some? ==> exists i ::
      && 0 <= i < |lists| && SameName(lists[i].name, name) && lists[i].slug == r.value
      && forall j :: 0 <= j < i ==> !SameName(lists[j].name, name)
  {
    if lists == [] then None
    else if SameName(lists[0].name, name) then Some(lists[0].slug)
    else
      var r := FindList(lists[1..], name);
      assert r.Some? ==> exists i ::
        && 1 <= i < |lists| && SameName(lists[i].name, name) && lists[i].slug == r.value
        && forall j :: 0 <= j < i ==> !SameName(lists[j].name, name) by {
        if r.Some? {
          var i :| 0 <= i < |lists[1..]| && SameName(lists[1..][i].name, name) && lists[1..][i].slug == r.value
            && forall j :: 0 <= j < i ==> !SameName(lists[1..][j].name, name);
          assert forall j :: 0 <= j < i + 1 ==> !SameName(lists[j].name, name) by {
            forall j | 0 <= j < i + 1 ensures !SameName(lists[j].name, name) {
              if j > 0 { assert lists[j] == lists[1..][j - 1]; }
            }
          }
        }
      }
      assert r.None? ==> forall i :: 0 <= i < |lists| ==> !SameName(lists[i].name, name) by {
        if r.None? {
          forall i | 0 <= i < |lists| ensures !SameName(lists[i].name, name) {
            if i > 0 { assert lists[i] == lists[1..][i - 1]; }
          }
        }
      }
      r
  }

  /** The search of one pass; a failed listing finds nothing. */
  function SearchRound(round: ListRound, name: string): Option<string> {
    if round.listing.Some? then FindList(round.listing.value, name) else None
  }

  /** `get_or_create_trakt_list`: search; on a miss, create and search
      again. Each pass consumes one round of replies, so the recursion of
      the source ends when the rounds do. */
  function GetOrCreateList(name: string, rounds: seq<ListRound>): (r: ListLookup)
    ensures r.Found? ==> r.created < |rounds| && SearchRound(rounds[r.created], name) == Some(r.slug)
    ensures r.Found? ==> forall j :: 0 <= j < r.created ==>
      SearchRound(rounds[j], name).None? && rounds[j].createAccepted
    ensures r.CreateFailed? ==> exists i ::
      && 0 <= i < |rounds|
      && SearchRound(rounds[i], name).None? && !rounds[i].createAccepted
    decreases |rounds|
  {
    if rounds == [] then OutOfRounds
    else match SearchRound(rounds[0], name)
      case Some(slug) => Found(slug, 0)
      case None =>
        if !rounds[0].createAccepted then CreateFailed
        else
          var r := GetOrCreateList(name, rounds[1..]);
          match r
          case Found(slug, n) =>
            assert forall j :: 1 <= j < n + 1 ==> rounds[j] == rounds[1..][j - 1];
            Found(slug, n + 1)
          case CreateFailed =>
            var i :| 0 <= i < |rounds[1..]| && SearchRound(rounds[1..][i], name).None? && !rounds[1..][i].createAccepted;
            assert rounds[i + 1] == rounds[1..][i];
            CreateFailed
          case OutOfRounds => OutOfRounds
  }

  /** The search and creation replies decide the outcome: after passes that
      each missed and had their creation accepted, a hit at pass `j` is the
      result, found after `j` creations, and a miss whose creation is
      refused ends in `CreateFailed`. */
  lemma {:induction false} GetOrCreateListDecided(name: string, rounds: seq<ListRound>, j: int)
    requires 0 <= j < |rounds|
    requires forall i :: 0 <= i < j ==> SearchRound(rounds[i], name).None? && rounds[i].createAccepted
    ensures SearchRound(rounds[j], name).Some? ==>
      GetOrCreateList(name, rounds) == Found(SearchRound(rounds[j], name).value, j)
    ensures SearchRound(rounds[j], name).None? && !rounds[j].createAccepted ==>
      GetOrCreateList(name, rounds) == CreateFailed
    decreases j
  {
    if j > 0 {
      forall i | 0 <= i < j - 1
        ensures SearchRound(rounds[1..][i], name).None? && rounds[1..][i].createAccepted
      {
        assert rounds[1..][i] == rounds[i + 1];
      }
      assert rounds[1..][j - 1] == rounds[j];
      GetOrCreateListDecided(name, rounds[1..], j - 1);
    }
  }

  /** When every supplied pass misses and has its creation accepted, the
      rounds run out before the list is seen. */
  lemma {:induction false} GetOrCreateListExhausted(name: string, rounds: seq<ListRound>)
    requires forall i :: 0 <= i < |rounds| ==> SearchRound(rounds[i], name).None? && rounds[i].createAccepted
    ensures GetOrCreateList(name, rounds) == OutOfRounds
    decreases |rounds|
  {
    if rounds != [] {
      forall i | 0 <= i < |rounds[1..]|
        ensures SearchRound(rounds[1..][i], name).None? && rounds[1..][i].createAccepted
      {
        assert rounds[1..][i] == rounds[i + 1];
      }
      GetOrCreateListExhausted(name, rounds[1..]);
    }
  }

  /** A list that is already visible is used as it is: nothing is created. */
  lemma ExistingListReused(name: string, rounds: seq<ListRound>, slug: string)
    requires rounds != [] && SearchRound(rounds[0], name) == Some(slug)
    ensures GetOrCreateList(name, rounds) == Found(slug, 0)
  {
  }

  /** `[item['show']['ids']['trakt'] for item in items if item.get('show')]`. */
  function ShowIds(items: seq<ListItem>): (ids: seq<int>)
    ensures |ids| <= |items|
    ensures forall id :: id in ids <==> ShowItem(id) in items
  {
    if items == [] then []
    else
      assert items == [items[0]] + items[1..];
      (if items[0].ShowItem? then [items[0].traktId] else []) + ShowIds(items[1..])
  }

  /** `[int(show['trakt_id']) for show in airing_shows]`. */
  function DesiredIds(entries: seq<AiringEntry>): (ids: seq<int>)
    ensures |ids| == |entries|
    ensures forall i :: 0 <= i < |entries| ==> ids[i] == entries[i].traktId
  {
    seq(|entries|, i requires 0 <= i < |entries| => entries[i].traktId)
  }

  function ShowItems(ids: seq<int>): (items: seq<ListItem>)
    ensures |items| == |ids|
    ensures forall i :: 0 <= i < |ids| ==> items[i] == ShowItem(ids[i])
  {
    seq(|ids|, i requires 0 <= i < |ids| => ShowItem(ids[i]))
  }

  /** The bulk removal: every show whose id is listed leaves the list. */
  function RemoveShowsFrom(items: seq<ListItem>, ids: seq<int>): (r: seq<ListItem>)
    ensures forall x :: x in r ==> x in items && !(x.ShowItem? && x.traktId in ids)
  {
    if items == [] then []
    else (if items[0].ShowItem? && items[0].traktId in ids then [] else [items[0]]) + RemoveShowsFrom(items[1..], ids)
  }

  /** `update_trakt_list`: no request at all when the fetched ids already
      equal the desired ids, order included; otherwise remove every fetched
      id, then add every desired id in order. A failed fetch reads as an
      empty list. */
  function UpdateList(items: seq<ListItem>, entries: seq<AiringEntry>, replies: ListReplies): (r: UpdateRun)
    ensures var current := if replies.fetchOk then ShowIds(items) else [];
      && (r.calls == [] <==> current == DesiredIds(entries))
      && (r.calls == [] ==> r.after == items)
      && (r.calls != [] ==> r.calls == [RemoveShows(current), AddShows(DesiredIds(entries))])
    ensures !replies.removeOk && !replies.addOk ==> r.after == items
    ensures forall x :: x in r.after ==> x in items || (replies.addOk && x in ShowItems(DesiredIds(entries)))
  {
    var current := if replies.fetchOk then ShowIds(items) else [];
    var desired := DesiredIds(entries);
    if current == desired then UpdateRun([], items)
    else
      var removed := if replies.removeOk then RemoveShowsFrom(items, current) else items;
      var added := if replies.addOk then removed + ShowItems(desired) else removed;
      UpdateRun([RemoveShows(current), AddShows(desired)], added)
  }

  lemma {:induction false} ShowIdsAppend(a: seq<ListItem>, b: seq<ListItem>)
    ensures ShowIds(a + b) == ShowIds(a) + ShowIds(b)
  {
    if a == [] {
      assert a + b == b;
    } else {
      var ab := a + b;
      assert ab[0] == a[0] && ab[1..] == a[1..] + b;
      ShowIdsUnfold(ab);
      ShowIdsUnfold(a);
      ShowIdsAppend(a[1..], b);
      var head := if a[0].ShowItem? then [a[0].traktId] else [];
      ConcatAssoc(head, ShowIds(a[1..]), ShowIds(b));
    }
  }

  lemma ConcatAssoc(x: seq<int>, y: seq<int>, z: seq<int>)
    ensures x + (y + z) == (x + y) + z
  {
  }

  /** The ids of a non-empty list, one step unfolded. */
  lemma ShowIdsUnfold(items: seq<ListItem>)
    requires items != []
    ensures ShowIds(items) == (if items[0].ShowItem? then [items[0].traktId] else []) + ShowIds(items[1..])
  {
  }

  lemma {:induction false} ShowIdsOfShowItems(ids: seq<int>)
    ensures ShowIds(ShowItems(ids)) == ids
  {
    if ids != [] {
      ShowIdsOfShowItems(ids[1..]);
      assert ShowItems(ids)[1..] == ShowItems(ids[1..]);
    }
  }

  /** Removing every show the list holds leaves no show in it. */
  lemma {:induction false} RemovingAllShowsLeavesNone(items: seq<ListItem>, ids: seq<int>)
    requires forall i :: 0 <= i < |items| && items[i].ShowItem? ==> items[i].traktId in ids
    ensures ShowIds(RemoveShowsFrom(items, ids)) == []
  {
    if items != [] {
      RemovingAllShowsLeavesNone(items[1..], ids);
      var head := if items[0].ShowItem? && items[0].traktId in ids then [] else [items[0]];
      ShowIdsAppend(head, RemoveShowsFrom(items[1..], ids));
    }
  }

  /** When the fetch, the removal and the addition succeed (or nothing
      needed sending), the shows on the remote list afterwards are exactly
      the desired ids, in order. */
  lemma {:induction false} ListEqualsDesired(items: seq<ListItem>, entries: seq<AiringEntry>, replies: ListReplies)
    requires replies.fetchOk
    requires UpdateList(items, entries, replies).calls != [] ==> replies.removeOk && replies.addOk
    ensures ShowIds(UpdateList(items, entries, replies).after) == DesiredIds(entries)
  {
    var current := ShowIds(items);
    var desired := DesiredIds(entries);
    if current != desired {
      RemovingAllShowsLeavesNone(items, current);
      ShowIdsAppend(RemoveShowsFrom(items, current), ShowItems(desired));
      ShowIdsOfShowItems(desired);
    }
  }

  /** When every list request succeeds, the list ends holding exactly the
      desired ids, in order. */
  lemma UpdatePublishes(items: seq<ListItem>, entries: seq<AiringEntry>, replies: ListReplies)
    ensures replies == ListReplies(true, true, true) ==>
      ShowIds(UpdateList(items, entries, replies).after) == DesiredIds(entries)
  {
    if replies == ListReplies(true, true, true) {
      ListEqualsDesired(items, entries, replies);
    }
  }

  /** Reconciling a list that was just reconciled successfully sends nothing. */
  lemma ReconcileIdempotent(items: seq<ListItem>, entries: seq<AiringEntry>, replies: ListReplies, again: ListReplies)
    requires replies.fetchOk
    requires UpdateList(items, entries, replies).calls != [] ==> replies.removeOk && replies.addOk
    requires again.fetchOk
    ensures UpdateList(UpdateList(items, entries, replies).after, entries, again).calls == []
  {
    ListEqualsDesired(items, entries, replies);
  }

  /** A failed fetch is read as an empty list: the desired shows are then
      appended to whatever the list already holds. */
  lemma {:induction false} FailedFetchAppends(items: seq<ListItem>, entries: seq<AiringEntry>, replies: ListReplies)
    requires !replies.fetchOk && replies.addOk
    ensures UpdateList(items, entries, replies).after == items + ShowItems(DesiredIds(entries))
  {
    RemoveNothing(items);
  }

  lemma {:induction false} RemoveNothing(items: seq<ListItem>)
    ensures RemoveShowsFrom(items, []) == items
  {
    if items != [] {
      RemoveNothing(items[1..]);
      assert items == [items[0]] + items[1..];
    }
  }
}

=== FILE: overlay_writer.dfy ===
/** Overlay descriptor construction (`create_yaml`): every show of a
    library is resolved, skipped shows contribute nothing, and each
    resolved show writes one entry under a key built from the library name
    and its title. A later show whose key collides replaces the earlier
    entry. The airing entries of the resolved shows are accumulated in
    catalog order. */
module OverlayWriter {
  import opened Wrappers
  import opened Text
  import opened StatusResolver

  /** One overlay entry: the fixed styling of the source plus the resolved
      label and colour, and the exact-title search filter. */
  datatype Overlay = Overlay(
    backColor: string,
    backHeight: int,
    backWidth: int,
    color: string,
    font: string,
    fontSize: int,
    horizontalAlign: string,
    horizontalOffset: int,
    name: string,
    verticalAlign: string,
    verticalOffset: int,
    searchTitle: string)

  /** The descriptor mapping of one library and the airing entries its shows appended. */
  datatype LibraryOutput = LibraryOutput(overlays: map<string, Overlay>, airing: seq<AiringEntry>)

  /** A catalog library: its name and its shows in catalog order. */
  datatype Library = Library(name: string, shows: seq<Show>)

  /** `{library}_Status_{title with spaces as underscores}`. */
  function OverlayKey(library: string, title: string): (k: string)
    ensures StartsWith(k, library + "_Status_")
    ensures |k| == |library| + 8 + |title|
    ensures forall i :: 0 <= i < |title| ==> k[|library| + 8 + i] == (if title[i] == ' ' then '_' else title[i])
  {
    library + "_Status_" + ReplaceChar(title, ' ', '_')
  }

  function OverlayFor(status: StatusResult, title: string): (o: Overlay)
    ensures o.backColor == status.backColor && o.font == status.font && o.searchTitle == title
    ensures o.name == "text(" + status.text + ")"
  {
    Overlay(status.backColor, 90, 1000, "#FFFFFF", status.font, 70, "center", 0,
            "text(" + status.text + ")", "top", 0, title)
  }

  function AiringOf(r: Resolution): seq<AiringEntry> {
    if r.airing.Some? then [r.airing.value] else []
  }

  /** A show title paired with what resolving the show yielded. */
  type Item = (string, Resolution)

  /** Every show of a library resolved, in catalog order. */
  function Resolutions(shows: seq<Show>, remote: Remote, config: Config): (items: seq<Item>)
    requires CoversColorKeys(config.colors)
    ensures |items| == |shows|
    ensures forall i :: 0 <= i < |shows| ==> items[i] == (shows[i].title, ResolveShow(shows[i], remote, config))
  {
    seq(|shows|, i requires 0 <= i < |shows| => (shows[i].title, ResolveShow(shows[i], remote, config)))
  }

  /** The loop body of `create_yaml` applied to every resolved show in
      order: a skipped show changes nothing; a resolved one writes its
      entry under its key, replacing what was there. */
  function Assemble(library: string, items: seq<Item>): (r: LibraryOutput)
    ensures |r.airing| <= |items|
    decreases |items|
  {
    if items == [] then LibraryOutput(map[], [])
    else
      var prev := Assemble(library, items[..|items| - 1]);
      var (title, res) := items[|items| - 1];
      match res.status
      case None => prev
      case Some(st) =>
        LibraryOutput(prev.overlays[OverlayKey(library, title) := OverlayFor(st, title)],
                      prev.airing + AiringOf(res))
  }

  /** `create_yaml` without the serialisation. */
  function BuildOverlays(library: string, shows: seq<Show>, remote: Remote, config: Config): (r: LibraryOutput)
    requires CoversColorKeys(config.colors)
    ensures forall k :: k in r.overlays ==> WrittenBySomeShow(library, shows, remote, config, k, r.overlays[k])
    ensures forall e :: e in r.airing <==> AiredBySomeShow(shows, remote, config, e)
    ensures |r.airing| <= |shows|
  {
    var items := Resolutions(shows, remote, config);
    ShowEntriesFromShows(library, shows, remote, config);
    ShowAiringFromShows(library, shows, remote, config);
    assert |Assemble(library, items).airing| <= |items| == |shows|;
    Assemble(library, items)
  }

  /** Assembling a concatenation is the map union, right side winning, of
      the two halves, and their airing entries in order: later shows
      overwrite earlier ones, and the accumulator only grows. */
  lemma {:induction false} AssembleSplits(library: string, a: seq<Item>, b: seq<Item>)
    ensures var ab := Assemble(library, a + b);
      var l := Assemble(library, a);
      var r := Assemble(library, b);
      ab.overlays == l.overlays + r.overlays && ab.airing == l.airing + r.airing
    decreases |b|
  {
    if b == [] {
      assert a + b == a;
    } else {
      var b' := b[..|b| - 1];
      assert (a + b)[..|a + b| - 1] == a + b';
      assert (a + b)[|a + b| - 1] == b[|b| - 1];
      AssembleSplits(library, a, b');
      var l := Assemble(library, a);
      var r' := Assemble(library, b');
      var (title, res) := b[|b| - 1];
      if res.status.Some? {
        var k := OverlayKey(library, title);
        var o := OverlayFor(res.status.value, title);
        assert (l.overlays + r'.overlays)[k := o] == l.overlays + r'.overlays[k := o];
        assert l.airing + r'.airing + AiringOf(res) == l.airing + (r'.airing + AiringOf(res));
      }
    }
  }

  /** A key is present exactly when some resolved show of the library
      produces it; skipped shows contribute nothing. */
  lemma {:induction false} OverlayKeysExact(library: string, items: seq<Item>)
    ensures forall k :: k in Assemble(library, items).overlays <==>
      exists i :: 0 <= i < |items| && items[i].1.status.Some? && OverlayKey(library, items[i].0) == k
    decreases |items|
  {
    if items != [] {
      var n := |items| - 1;
      var init := items[..n];
      OverlayKeysExact(library, init);
      forall k
        ensures k in Assemble(library, items).overlays <==>
          exists i :: 0 <= i < |items| && items[i].1.status.Some? && OverlayKey(library, items[i].0) == k
      {
        if k in Assemble(library, items).overlays {
          if !(items[n].1.status.Some? && OverlayKey(library, items[n].0) == k) {
            var i :| 0 <= i < |init| && init[i].1.status.Some? && OverlayKey(library, init[i].0) == k;
            assert items[i] == init[i];
          }
        } else {
          forall i | 0 <= i < |items| && items[i].1.status.Some?
            ensures OverlayKey(library, items[i].0) != k
          {
            if i < n {
              assert items[i] == init[i];
            }
          }
        }
      }
    }
  }

  /** The entry under a resolved show's key is that show's own overlay when
      no later resolved show has the same key. */
  lemma {:induction false} LastWriterWins(library: string, items: seq<Item>, i: int)
    requires 0 <= i < |items| && items[i].1.status.Some?
    requires forall j :: i < j < |items| && items[j].1.status.Some? ==>
      OverlayKey(library, items[j].0) != OverlayKey(library, items[i].0)
    ensures var out := Assemble(library, items);
      var k := OverlayKey(library, items[i].0);
      k in out.overlays && out.overlays[k] == OverlayFor(items[i].1.status.value, items[i].0)
    decreases |items|
  {
    var n := |items| - 1;
    if i < n {
      var init := items[..n];
      assert init[i] == items[i];
      forall j | i < j < |init| && init[j].1.status.Some?
        ensures OverlayKey(library, init[j].0) != OverlayKey(library, init[i].0)
      {
        assert init[j] == items[j];
      }
      LastWriterWins(library, init, i);
    }
  }

  /** `o` under key `k` is what some resolved item writes. */
  ghost predicate WrittenBySomeItem(library: string, items: seq<Item>, k: string, o: Overlay) {
    exists i :: 0 <= i < |items| && items[i].1.status.Some? &&
      k == OverlayKey(library, items[i].0) && o == OverlayFor(items[i].1.status.value, items[i].0)
  }

  /** `o` under key `k` is what some show of the library writes once resolved. */
  ghost predicate WrittenBySomeShow(library: string, shows: seq<Show>, remote: Remote, config: Config, k: string, o: Overlay)
    requires CoversColorKeys(config.colors)
  {
    exists i :: 0 <= i < |shows| && ResolveShow(shows[i], remote, config).status.Some? &&
      k == OverlayKey(library, shows[i].title) &&
      o == OverlayFor(ResolveShow(shows[i], remote, config).status.value, shows[i].title)
  }

  /** Every entry is the overlay of some resolved show under that show's key. */
  lemma {:induction false} EntriesFromShows(library: string, items: seq<Item>)
    ensures forall k :: k in Assemble(library, items).overlays ==>
      WrittenBySomeItem(library, items, k, Assemble(library, items).overlays[k])
    decreases |items|
  {
    if items != [] {
      var n := |items| - 1;
      var init := items[..n];
      EntriesFromShows(library, init);
      var r := Assemble(library, items);
      var prev := Assemble(library, init);
      forall k | k in r.overlays
        ensures WrittenBySomeItem(library, items, k, r.overlays[k])
      {
        if items[n].1.status.Some? && k == OverlayKey(library, items[n].0) {
          assert r.overlays[k] == OverlayFor(items[n].1.status.value, items[n].0);
        } else {
          assert k in prev.overlays && r.overlays[k] == prev.overlays[k];
          assert WrittenBySomeItem(library, init, k, prev.overlays[k]);
          var i :| 0 <= i < |init| && init[i].1.status.Some? && k == OverlayKey(library, init[i].0)
            && prev.overlays[k] == OverlayFor(init[i].1.status.value, init[i].0);
          assert items[i] == init[i];
        }
      }
    }
  }

  /** `EntriesFromShows` stated over the shows of a library. */
  lemma ShowEntriesFromShows(library: string, shows: seq<Show>, remote: Remote, config: Config)
    requires CoversColorKeys(config.colors)
    ensures var r := Assemble(library, Resolutions(shows, remote, config));
      forall k :: k in r.overlays ==> WrittenBySomeShow(library, shows, remote, config, k, r.overlays[k])
  {
    var items := Resolutions(shows, remote, config);
    EntriesFromShows(library, items);
    var r := Assemble(library, items);
    forall k | k in r.overlays
      ensures WrittenBySomeShow(library, shows, remote, config, k, r.overlays[k])
    {
      assert WrittenBySomeItem(library, items, k, r.overlays[k]);
      var i :| 0 <= i < |items| && items[i].1.status.Some? && k == OverlayKey(library, items[i].0)
        && r.overlays[k] == OverlayFor(items[i].1.status.value, items[i].0);
      assert items[i] == (shows[i].title, ResolveShow(shows[i], remote, config));
    }
  }

  /** One show on its own: skipped, it leaves nothing; resolved, it writes
      its entry under its key and appends its airing entry, if any. */
  lemma OneShowAssemble(library: string, t: string, res: Resolution)
    ensures Assemble(library, [(t, res)]) ==
      if res.status.Some? then LibraryOutput(map[OverlayKey(library, t) := OverlayFor(res.status.value, t)], AiringOf(res))
      else LibraryOutput(map[], [])
  {
    assert [(t, res)][..0] == [];
  }

  /** `e` is the airing entry of some resolved item. */
  ghost predicate AiredBySomeItem(items: seq<Item>, e: AiringEntry) {
    exists i :: 0 <= i < |items| && items[i].1.status.Some? && items[i].1.airing == Some(e)
  }

  /** `e` is the airing entry some show of the library resolves to. */
  ghost predicate AiredBySomeShow(shows: seq<Show>, remote: Remote, config: Config, e: AiringEntry)
    requires CoversColorKeys(config.colors)
  {
    exists i :: 0 <= i < |shows| && ResolveShow(shows[i], remote, config).airing == Some(e)
  }

  /** The accumulated airing entries are exactly those of the resolved items. */
  lemma {:induction false} AssembleAiringMembers(library: string, items: seq<Item>)
    ensures forall e :: e in Assemble(library, items).airing <==> AiredBySomeItem(items, e)
    decreases |items|
  {
    if items != [] {
      var n := |items| - 1;
      var init := items[..n];
      AssembleAiringMembers(library, init);
      var r := Assemble(library, items);
      var prev := Assemble(library, init);
      forall e
        ensures e in r.airing <==> AiredBySomeItem(items, e)
      {
        if AiredBySomeItem(items, e) {
          var i :| 0 <= i < |items| && items[i].1.status.Some? && items[i].1.airing == Some(e);
          if i < n {
            assert init[i] == items[i];
            assert AiredBySomeItem(init, e);
          }
        }
        if e in r.airing && !(items[n].1.status.Some? && items[n].1.airing == Some(e)) {
          assert e in prev.airing;
          var i :| 0 <= i < |init| && init[i].1.status.Some? && init[i].1.airing == Some(e);
          assert items[i] == init[i];
        }
      }
    }
  }

  /** `AssembleAiringMembers` stated over the shows of a library. */
  lemma ShowAiringFromShows(library: string, shows: seq<Show>, remote: Remote, config: Config)
    requires CoversColorKeys(config.colors)
    ensures forall e :: e in Assemble(library, Resolutions(shows, remote, config)).airing <==>
      AiredBySomeShow(shows, remote, config, e)
  {
    var items := Resolutions(shows, remote, config);
    AssembleAiringMembers(library, items);
    forall e
      ensures AiredBySomeItem(items, e) <==> AiredBySomeShow(shows, remote, config, e)
    {
      if AiredBySomeShow(shows, remote, config, e) {
        var i :| 0 <= i < |shows| && ResolveShow(shows[i], remote, config).airing == Some(e);
        assert items[i] == (shows[i].title, ResolveShow(shows[i], remote, config));
      }
      if AiredBySomeItem(items, e) {
        var i :| 0 <= i < |items| && items[i].1.status.Some? && items[i].1.airing == Some(e);
        assert items[i] == (shows[i].title, ResolveShow(shows[i], remote, config));
      }
    }
  }

  /** Number of shows the resolver does not skip. */
  function ResolvedCount(items: seq<Item>): nat
    decreases |items|
  {
    if items == [] then 0
    else ResolvedCount(items[..|items| - 1]) + (if items[|items| - 1].1.status.Some? then 1 else 0)
  }

  /** Collisions only lose entries: the descriptor never has more entries
      than there are resolved shows. */
  lemma {:induction false} OverlayCountBound(library: string, items: seq<Item>)
    ensures |Assemble(library, items).overlays| <= ResolvedCount(items)
    decreases |items|
  {
    if items != [] {
      OverlayCountBound(library, items[..|items| - 1]);
    }
  }

  /** Two titles collide in a library exactly when they agree after spaces
      become underscores. */
  lemma OverlayKeyCollision(library: string, t1: string, t2: string)
    ensures OverlayKey(library, t1) == OverlayKey(library, t2) <==>
      ReplaceChar(t1, ' ', '_') == ReplaceChar(t2, ' ', '_')
  {
    var p := library + "_Status_";
    if OverlayKey(library, t1) == OverlayKey(library, t2) {
      assert ReplaceChar(t1, ' ', '_') == OverlayKey(library, t1)[|p|..];
      assert ReplaceChar(t2, ' ', '_') == OverlayKey(library, t2)[|p|..];
    }
  }

  /** For instance, "Show A" and "Show_A" share one entry. */
  lemma SpaceUnderscoreCollision(library: string)
    ensures OverlayKey(library, "Show A") == OverlayKey(library, "Show_A")
  {
    assert ReplaceChar("Show A", ' ', '_') == "Show_A";
    assert ReplaceChar("Show_A", ' ', '_') == "Show_A";
  }

  /** The descriptor and airing entries of each library, in configuration order. */
  function LibraryOutputs(libraries: seq<Library>, remote: Remote, config: Config): (outs: seq<LibraryOutput>)
    requires CoversColorKeys(config.colors)
    ensures |outs| == |libraries|
    ensures forall i :: 0 <= i < |libraries| ==>
      outs[i] == BuildOverlays(libraries[i].name, libraries[i].shows, remote, config)
  {
    seq(|libraries|, i requires 0 <= i < |libraries| => BuildOverlays(libraries[i].name, libraries[i].shows, remote, config))
  }

  /** The main loop's effect: every descriptor written in order, and the
      run-wide airing accumulator extended library by library. */
  function Gather(outs: seq<LibraryOutput>): (r: (seq<map<string, Overlay>>, seq<AiringEntry>))
    ensures |r.0| == |outs|
    ensures forall i :: 0 <= i < |outs| ==> r.0[i] == outs[i].overlays
    decreases |outs|
  {
    if outs == [] then ([], [])
    else
      var prev := Gather(outs[..|outs| - 1]);
      var out := outs[|outs| - 1];
      (prev.0 + [out.overlays], prev.1 + out.airing)
  }

  /** The main loop over the configured libraries: one descriptor per
      library, in order, and the run-wide airing accumulator. */
  function WriteLibraries(libraries: seq<Library>, remote: Remote, config: Config): (r: (seq<map<string, Overlay>>, seq<AiringEntry>))
    requires CoversColorKeys(config.colors)
    ensures |r.0| == |libraries|
    ensures forall i :: 0 <= i < |libraries| ==>
      r.0[i] == BuildOverlays(libraries[i].name, libraries[i].shows, remote, config).overlays
  {
    Gather(LibraryOutputs(libraries, remote, config))
  }

  /** Gathering a concatenation concatenates the descriptors and the airing entries. */
  lemma {:induction false} GatherSplits(a: seq<LibraryOutput>, b: seq<LibraryOutput>)
    ensures Gather(a + b).0 == Gather(a).0 + Gather(b).0
    ensures Gather(a + b).1 == Gather(a).1 + Gather(b).1
    decreases |b|
  {
    if b == [] {
      assert a + b == a;
    } else {
      var b' := b[..|b| - 1];
      var ab := a + b;
      assert ab[..|ab| - 1] == a + b';
      assert ab[|ab| - 1] == b[|b| - 1];
      GatherSplits(a, b');
    }
  }

  /** Each library's descriptor depends on that library alone, and the
      accumulator holds every library's airing entries, library after
      library, duplicates included. */
  lemma LibrariesAccumulate(a: seq<Library>, b: seq<Library>, remote: Remote, config: Config)
    requires CoversColorKeys(config.colors)
    ensures var ab := WriteLibraries(a + b, remote, config);
      ab.0 == WriteLibraries(a, remote, config).0 + WriteLibraries(b, remote, config).0
      && ab.1 == WriteLibraries(a, remote, config).1 + WriteLibraries(b, remote, config).1
  {
    var oa := LibraryOutputs(a, remote, config);
    var ob := LibraryOutputs(b, remote, config);
    LibraryOutputsAppend(a, b, remote, config);
    GatherSplits(oa, ob);
  }

  lemma LibraryOutputsAppend(a: seq<Library>, b: seq<Library>, remote: Remote, config: Config)
    requires CoversColorKeys(config.colors)
    ensures LibraryOutputs(a + b, remote, config) == LibraryOutputs(a, remote, config) + LibraryOutputs(b, remote, config)
  {
    var ab := LibraryOutputs(a + b, remote, config);
    var oa := LibraryOutputs(a, remote, config);
    var ob := LibraryOutputs(b, remote, config);
    forall i | 0 <= i < |a + b|
      ensures ab[i] == (oa + ob)[i]
    {
      if i < |a| {
        assert (a + b)[i] == a[i];
      } else {
        assert (a + b)[i] == b[i - |a|];
      }
    }
  }

  /** A single library's run-wide airing entries are exactly those its
      shows appended; with `LibrariesAccumulate` this fixes the
      accumulator of any number of libraries. */
  lemma OneLibraryAiring(library: Library, remote: Remote, config: Config)
    requires CoversColorKeys(config.colors)
    ensures WriteLibraries([library], remote, config).1 == BuildOverlays(library.name, library.shows, remote, config).airing
  {
    var outs := LibraryOutputs([library], remote, config);
    assert |outs| == 1 && outs[..0] == [];
    assert Gather(outs[..0]) == ([], []);
    assert Gather(outs).1 == [] + outs[0].airing;
  }
}

=== FILE: status_resolver.dfy ===
/** Show status resolution (`process_show`): a catalog show's GUIDs are
    scanned for a TMDB identifier, the tracking service is asked for the
    show behind it, and its status is mapped to an overlay label, a
    background colour and, for a dated upcoming episode, one airing entry.
    The tracking service's answers are given as a `Remote` value. */
module StatusResolver {
  import opened Wrappers
  import opened Text

  const TmdbMarker: string := "tmdb://"
  const DefaultColor: string := "#FFFFFF"

  const EndedLabel: string := "E N D E D"
  const CancelledLabel: string := "C A N C E L L E D"
  const ReturningLabel: string := "R E T U R N I N G"
  const UnknownLabel: string := "UNKNOWN"

  /** The colour-table keys the resolver indexes without a default. */
  const RequiredColorKeys: set<string> :=
    {"ENDED", "CANCELLED", "RETURNING", "SEASON_FINALE", "MID_SEASON_FINALE",
     "FINAL_EPISODE", "SEASON_PREMIERE", "AIRING"}

  /** A catalog show: its display title and its external-ID strings. */
  datatype Show = Show(title: string, guids: seq<string>)

  /** The fields read from a `/shows/{id}?extended=full` reply. */
  datatype ShowRecord = ShowRecord(status: Option<string>)

  /** A non-empty 200 reply of `/shows/{id}/next_episode`. `localDate` is the
      `DD/MM` rendering of `firstAired` in the configured time zone. */
  datatype Episode = Episode(firstAired: Option<string>, episodeType: Option<string>, localDate: string)

  /** The tracking service as seen during one run. A key is absent where
      the source sees a non-200 or empty reply. `search` maps a TMDB id to
      the tracking id of the first search hit. */
  datatype Remote = Remote(
    search: map<string, int>,
    shows: map<int, ShowRecord>,
    nextEpisodes: map<int, Episode>)

  datatype Config = Config(colors: map<string, string>, font: string)

  datatype StatusResult = StatusResult(text: string, backColor: string, font: string)

  /** One element of the run-wide list of shows with a dated next episode. */
  datatype AiringEntry = AiringEntry(traktId: int, title: string, firstAired: string, episodeType: string)

  /** What resolving one show yields: the overlay status (or nothing, the
      show is skipped) and the airing entry appended, if any. */
  datatype Resolution = Resolution(status: Option<StatusResult>, airing: Option<AiringEntry>)

  const Skipped: Resolution := Resolution(None, None)

  predicate CoversColorKeys(colors: map<string, string>) {
    RequiredColorKeys <= colors.Keys
  }

  /** The kinds of upcoming episode the labels distinguish. */
  datatype EpisodeKind = SeasonFinale | MidSeasonFinale | SeriesFinale | SeasonPremiere | Regular

  /** Classification of the lower-cased `episode_type`. */
  function KindOf(episodeType: string): EpisodeKind {
    if episodeType == "season_finale" then SeasonFinale
    else if episodeType == "mid_season_finale" then MidSeasonFinale
    else if episodeType == "series_finale" then SeriesFinale
    else if episodeType == "season_premiere" then SeasonPremiere
    else Regular
  }

  function KindPrefix(k: EpisodeKind): string {
    match k
    case SeasonFinale => "SEASON FINALE "
    case MidSeasonFinale => "MID SEASON FINALE "
    case SeriesFinale => "FINAL EPISODE "
    case SeasonPremiere => "SEASON PREMIERE "
    case Regular => "AIRING "
  }

  function KindColorKey(k: EpisodeKind): string {
    match k
    case SeasonFinale => "SEASON_FINALE"
    case MidSeasonFinale => "MID_SEASON_FINALE"
    case SeriesFinale => "FINAL_EPISODE"
    case SeasonPremiere => "SEASON_PREMIERE"
    case Regular => "AIRING"
  }

  /** The decision table applied once the show record is known. `next` is
      the next-episode reply, consulted only for a returning series. */
  function ResolveStatus(record: ShowRecord, traktId: int, title: string, next: Option<Episode>, config: Config): (r: Resolution)
    requires CoversColorKeys(config.colors)
    ensures r.status.Some? && r.status.value.font == config.font
    ensures r.airing.Some? ==> r.airing.value.traktId == traktId && r.airing.value.title == title
  {
    var status := Lower(record.status.GetOr(""));
    var fallback := if Upper(status) in config.colors then config.colors[Upper(status)] else DefaultColor;
    if status == "ended" then
      Resolution(Some(StatusResult(EndedLabel, config.colors["ENDED"], config.font)), None)
    else if status == "canceled" then
      Resolution(Some(StatusResult(CancelledLabel, config.colors["CANCELLED"], config.font)), None)
    else if status == "returning series" then
      match next
      case None =>
        Resolution(Some(StatusResult(ReturningLabel, config.colors["RETURNING"], config.font)), None)
      case Some(ep) =>
        if Truthy(ep.firstAired) then
          var episodeType := Lower(ep.episodeType.GetOr(""));
          var kind := KindOf(episodeType);
          Resolution(
            Some(StatusResult(KindPrefix(kind) + ep.localDate, config.colors[KindColorKey(kind)], config.font)),
            Some(AiringEntry(traktId, title, ep.firstAired.value, episodeType)))
        else
          Resolution(Some(StatusResult(UnknownLabel, fallback, config.font)), None)
    else
      Resolution(Some(StatusResult(UnknownLabel, fallback, config.font)), None)
  }

  /** The tracking id and show record found through one GUID, if the GUID
      names a TMDB id and both the search and the show lookup succeed. */
  function Lookup(guid: string, remote: Remote): (h: Option<(int, ShowRecord)>)
    ensures h.Some? <==>
      && Contains(guid, TmdbMarker)
      && SecondField(guid, "//").Some?
      && SecondField(guid, "//").value in remote.search
      && remote.search[SecondField(guid, "//").value] in remote.shows
    ensures h.Some? ==>
      && h.value.0 == remote.search[SecondField(guid, "//").value]
      && h.value.0 in remote.shows && h.value.1 == remote.shows[h.value.0]
  {
    if !Contains(guid, TmdbMarker) then None
    else match SecondField(guid, "//")
      case None => None
      case Some(tmdbId) =>
        if tmdbId in remote.search && remote.search[tmdbId] in remote.shows then
          Some((remote.search[tmdbId], remote.shows[remote.search[tmdbId]]))
        else None
  }

  /** The next-episode reply for a tracking id. */
  function NextEpisode(remote: Remote, traktId: int): Option<Episode> {
    if traktId in remote.nextEpisodes then Some(remote.nextEpisodes[traktId]) else None
  }

  function ResolveHit(hit: (int, ShowRecord), title: string, remote: Remote, config: Config): Resolution
    requires CoversColorKeys(config.colors)
  {
    ResolveStatus(hit.1, hit.0, title, NextEpisode(remote, hit.0), config)
  }

  /** `i` is the first GUID whose lookups both succeed. */
  ghost predicate FirstHit(guids: seq<string>, remote: Remote, i: int) {
    && 0 <= i < |guids|
    && Lookup(guids[i], remote).Some?
    && forall j :: 0 <= j < i ==> Lookup(guids[j], remote).None?
  }

  /** The GUID scan, stated recursively: the first GUID whose lookups both
      succeed decides the result; a show with no such GUID is skipped. */
  function ScanGuids(guids: seq<string>, title: string, remote: Remote, config: Config): (r: Resolution)
    requires CoversColorKeys(config.colors)
    ensures r.status.None? <==> forall i :: 0 <= i < |guids| ==> Lookup(guids[i], remote).None?
    ensures r.status.None? ==> r == Skipped
    ensures forall i :: FirstHit(guids, remote, i) ==> r == ResolveHit(Lookup(guids[i], remote).value, title, remote, config)
  {
    if guids == [] then Skipped
    else match Lookup(guids[0], remote)
      case Some(hit) => ResolveHit(hit, title, remote, config)
      case None =>
        FirstHitShifts(guids, remote);
        ScanGuids(guids[1..], title, remote, config)
  }

  /** When the first GUID misses, the first hit lies in the rest. */
  lemma FirstHitShifts(guids: seq<string>, remote: Remote)
    requires guids != [] && Lookup(guids[0], remote).None?
    ensures forall i :: FirstHit(guids, remote, i) ==> i > 0 && FirstHit(guids[1..], remote, i - 1)
    ensures (forall i :: 0 <= i < |guids| ==> Lookup(guids[i], remote).None?) <==>
      (forall i :: 0 <= i < |guids[1..]| ==> Lookup(guids[1..][i], remote).None?)
  {
    forall i | FirstHit(guids, remote, i)
      ensures i > 0 && FirstHit(guids[1..], remote, i - 1)
    {
      forall j | 0 <= j < i - 1
        ensures Lookup(guids[1..][j], remote).None?
      {
        assert guids[1..][j] == guids[j + 1];
      }
    }
    if forall i :: 0 <= i < |guids[1..]| ==> Lookup(guids[1..][i], remote).None? {
      forall i | 0 <= i < |guids|
        ensures Lookup(guids[i], remote).None?
      {
        if i > 0 {
          assert guids[i] == guids[1..][i - 1];
        }
      }
    }
  }

  /** `process_show`. */
  function ResolveShow(show: Show, remote: Remote, config: Config): (r: Resolution)
    requires CoversColorKeys(config.colors)
    ensures r.status.None? <==> forall i :: 0 <= i < |show.guids| ==> Lookup(show.guids[i], remote).None?
    ensures r.status.None? ==> r == Skipped
    ensures forall i :: FirstHit(show.guids, remote, i) ==>
      r == ResolveHit(Lookup(show.guids[i], remote).value, show.title, remote, config)
  {
    ScanGuids(show.guids, show.title, remote, config)
  }

  /** The position of the first GUID whose lookups both succeed, or
      `|guids|` when there is none: the loop of `process_show`. */
  method FindHit(guids: seq<string>, remote: Remote) returns (k: nat)
    ensures k <= |guids|
    ensures forall j :: 0 <= j < k ==> Lookup(guids[j], remote).None?
    ensures k < |guids| ==> Lookup(guids[k], remote).Some?
  {
    k := 0;
    while k < |guids|
      invariant k <= |guids|
      invariant forall j :: 0 <= j < k ==> Lookup(guids[j], remote).None?
    {
      if Lookup(guids[k], remote).Some? {
        return;
      }
      k := k + 1;
    }
  }

  /** `process_show` as the loop the source runs: GUIDs are tried in order
      and the first one whose lookups both succeed returns. */
  method ProcessShow(show: Show, remote: Remote, config: Config) returns (r: Resolution)
    requires CoversColorKeys(config.colors)
    ensures r.status.None? <==> forall i :: 0 <= i < |show.guids| ==> Lookup(show.guids[i], remote).None?
    ensures r.status.None? ==> r == Skipped
    ensures forall i :: FirstHit(show.guids, remote, i) ==>
      r == ResolveHit(Lookup(show.guids[i], remote).value, show.title, remote, config)
  {
    var k := FindHit(show.guids, remote);
    if k < |show.guids| {
      r := ResolveHit(Lookup(show.guids[k], remote).value, show.title, remote, config);
      assert forall i :: FirstHit(show.guids, remote, i) ==> i == k;
    } else {
      r := Skipped;
    }
  }

  /** Every GUID carrying the TMDB marker has a second `//`-field, so the
      `split('//')[1]` of the source never raises there. */
  lemma TmdbGuidHasId(guid: string)
    requires Contains(guid, TmdbMarker)
    ensures SecondField(guid, "//").Some?
  {
    ContainsMeansOccurs(guid, TmdbMarker);
    var k: nat :| OccursAt(guid, TmdbMarker, k);
    assert guid[k + 5..k + 7] == guid[k..k + 7][5..7];
    assert OccursAt(guid, "//", k + 5);
    ContainsMeansOccurs(guid, "//");
  }

  // ---------------------------------------------------------------------
  // The decision table, read back from the label

  /** The branch of the decision table a resolution came from. */
  datatype Verdict = Ended | Cancelled | Returning | Dated(kind: EpisodeKind) | Unknown

  /** The label each branch shows; `date` only matters for a dated episode. */
  function LabelOf(v: Verdict, date: string): string {
    match v
    case Ended => EndedLabel
    case Cancelled => CancelledLabel
    case Returning => ReturningLabel
    case Dated(k) => KindPrefix(k) + date
    case Unknown => UnknownLabel
  }

  /** Recovers the branch from an overlay label. */
  function ParseLabel(text: string): Option<Verdict> {
    if text == EndedLabel then Some(Ended)
    else if text == CancelledLabel then Some(Cancelled)
    else if text == ReturningLabel then Some(Returning)
    else if text == UnknownLabel then Some(Unknown)
    else if StartsWith(text, KindPrefix(SeasonFinale)) then Some(Dated(SeasonFinale))
    else if StartsWith(text, KindPrefix(MidSeasonFinale)) then Some(Dated(MidSeasonFinale))
    else if StartsWith(text, KindPrefix(SeriesFinale)) then Some(Dated(SeriesFinale))
    else if StartsWith(text, KindPrefix(SeasonPremiere)) then Some(Dated(SeasonPremiere))
    else if StartsWith(text, KindPrefix(Regular)) then Some(Dated(Regular))
    else None
  }

  /** Labels are unambiguous: the branch can always be read back from the
      label, whatever date string is embedded in it. */
  lemma LabelRoundTrip(v: Verdict, date: string)
    ensures ParseLabel(LabelOf(v, date)) == Some(v)
  {
    if v.Dated? {
      DatedLabelParses(v.kind, date);
    }
  }

  /** A dated label is none of the fixed labels and starts with no earlier
      prefix than its own. */
  lemma DatedLabelParses(k: EpisodeKind, date: string)
    ensures ParseLabel(KindPrefix(k) + date) == Some(Dated(k))
  {
    var p := KindPrefix(k);
    var t := p + date;
    assert t[..|p|] == p;
    assert t[0] == p[0];
    Differs(t, EndedLabel, 0);
    Differs(t, CancelledLabel, 0);
    Differs(t, ReturningLabel, 0);
    Differs(t, UnknownLabel, 0);
    if k != SeasonFinale {
      if k == SeasonPremiere {
        assert t[7] == p[7];
        DiffersFromPrefix(t, KindPrefix(SeasonFinale), 7);
      } else {
        DiffersFromPrefix(t, KindPrefix(SeasonFinale), 0);
      }
    }
    if k != SeasonFinale && k != MidSeasonFinale {
      DiffersFromPrefix(t, KindPrefix(MidSeasonFinale), 0);
    }
    if k == SeasonPremiere || k == Regular {
      DiffersFromPrefix(t, KindPrefix(SeriesFinale), 0);
    }
    if k == Regular {
      DiffersFromPrefix(t, KindPrefix(SeasonPremiere), 0);
    }
  }

  lemma Differs(t: string, q: string, i: nat)
    requires i < |t| && i < |q| && t[i] != q[i]
    ensures t != q
  {
  }

  lemma DiffersFromPrefix(t: string, q: string, i: nat)
    requires i < |t| && i < |q| && t[i] != q[i]
    ensures !StartsWith(t, q)
  {
    if |q| <= |t| {
      assert t[..|q|][i] == t[i];
    }
  }

  /** The branch of the decision table selected by a status string and
      next-episode reply, stated independently of the labels. */
  function VerdictOf(status: Option<string>, next: Option<Episode>): Verdict {
    var s := Lower(status.GetOr(""));
    if s == "ended" then Ended
    else if s == "canceled" then Cancelled
    else if s == "returning series" && next.None? then Returning
    else if s == "returning series" && Truthy(next.value.firstAired) then
      Dated(KindOf(Lower(next.value.episodeType.GetOr(""))))
    else Unknown
  }

  /** The colour table key of each branch; `Unknown` looks up the
      upper-cased status itself and falls back to white. */
  function ColorOf(v: Verdict, status: Option<string>, colors: map<string, string>): string
    requires CoversColorKeys(colors)
  {
    match v
    case Ended => colors["ENDED"]
    case Cancelled => colors["CANCELLED"]
    case Returning => colors["RETURNING"]
    case Dated(k) => colors[KindColorKey(k)]
    case Unknown =>
      var key := Upper(Lower(status.GetOr("")));
      if key in colors then colors[key] else DefaultColor
  }

  /** Every resolved show carries the label and colour of its branch, and
      exactly the dated branch appends an airing entry. */
  lemma ResolutionFollowsVerdict(record: ShowRecord, traktId: int, title: string, next: Option<Episode>, config: Config)
    requires CoversColorKeys(config.colors)
    ensures var r := ResolveStatus(record, traktId, title, next, config);
      var v := VerdictOf(record.status, next);
      && r.status.Some?
      && r.status.value.text == LabelOf(v, if next.Some? then next.value.localDate else "")
      && r.status.value.backColor == ColorOf(v, record.status, config.colors)
      && (r.airing.Some? <==> v.Dated?)
      && ParseLabel(r.status.value.text) == Some(v)
  {
    var v := VerdictOf(record.status, next);
    LabelRoundTrip(v, if next.Some? then next.value.localDate else "");
  }

  /** `ended` and `canceled` give their fixed labels and colours; any status
      other than those and `returning series` gives `UNKNOWN` with the
      status's own colour entry or white. None of them appends an entry. */
  lemma FixedStatusLabels(record: ShowRecord, traktId: int, title: string, next: Option<Episode>, config: Config)
    requires CoversColorKeys(config.colors)
    ensures var r := ResolveStatus(record, traktId, title, next, config);
      var s := Lower(record.status.GetOr(""));
      && (s == "ended" ==> r == Resolution(Some(StatusResult("E N D E D", config.colors["ENDED"], config.font)), None))
      && (s == "canceled" ==> r == Resolution(Some(StatusResult("C A N C E L L E D", config.colors["CANCELLED"], config.font)), None))
      && (s !in {"ended", "canceled", "returning series"} ==>
            r == Resolution(Some(StatusResult("UNKNOWN",
                   if Upper(s) in config.colors then config.colors[Upper(s)] else "#FFFFFF", config.font)), None))
  {
  }

  /** A returning series: no next episode gives `R E T U R N I N G`; one
      without an air date leaves `UNKNOWN`; one with an air date gives the
      episode-type label followed by the date, the matching colour, and
      exactly one airing entry. */
  lemma ReturningSeriesLabels(record: ShowRecord, traktId: int, title: string, next: Option<Episode>, config: Config)
    requires CoversColorKeys(config.colors)
    requires Lower(record.status.GetOr("")) == "returning series"
    ensures var r := ResolveStatus(record, traktId, title, next, config);
      && (next.None? ==> r == Resolution(Some(StatusResult("R E T U R N I N G", config.colors["RETURNING"], config.font)), None))
      && (next.Some? && !Truthy(next.value.firstAired) ==>
            r.airing.None? && r.status.value.text == "UNKNOWN"
            && r.status.value.backColor == (if "RETURNING SERIES" in config.colors then config.colors["RETURNING SERIES"] else "#FFFFFF"))
      && (next.Some? && Truthy(next.value.firstAired) ==>
            var t := Lower(next.value.episodeType.GetOr(""));
            && r.airing == Some(AiringEntry(traktId, title, next.value.firstAired.value, t))
            && r.status.value.text == KindPrefix(KindOf(t)) + next.value.localDate
            && r.status.value.backColor == config.colors[KindColorKey(KindOf(t))])
  {
    if next.Some? && !Truthy(next.value.firstAired) {
      var s := Lower(record.status.GetOr(""));
      assert Upper(s) == "RETURNING SERIES";
    }
  }
}

=== FILE: sync_run.dfy ===
/** One run of the synchroniser, composed from the components in the order
    of the script's main block: obtain a token; write every library's
    overlay descriptor while accumulating airing entries; seed the
    collection files; find or create the "Next Airing" list; sort the
    accumulated entries and reconcile the list with them. */
module SyncRun {
  import opened Wrappers
  import opened TokenManager
  import opened StatusResolver
  import opened OverlayWriter
  import opened CollectionBootstrap
  import opened AiringSort
  import opened ListReconciler

  const ListName: string := "Next Airing"

  /** Everything the run reads from outside: the credential file and token
      endpoint, the tracking service, the configuration, the collections
      directory, the list endpoints, and the timestamp parser. */
  datatype RunEnv = RunEnv(
    credentials: Option<Credential>,
    auth: AuthEnv,
    remote: Remote,
    config: Config,
    collectionsDir: string,
    collectionFiles: Files,
    listRounds: seq<ListRound>,
    listItems: seq<ListItem>,
    listReplies: ListReplies,
    airTime: string -> int)

  datatype RunResult =
    | Stopped(token: TokenRun)      // no token: the script exits or raises before any other work
    | Crashed(                      // seeding a collection file raised `KeyError`
        token: TokenRun,
        overlays: seq<map<string, Overlay>>,
        airing: seq<AiringEntry>,
        files: Files,
        key: string)
    | Completed(
        token: TokenRun,
        overlays: seq<map<string, Overlay>>,
        airing: seq<AiringEntry>,
        files: Files,
        list: ListLookup,
        update: Option<UpdateRun>)

  function LibraryNames(libraries: seq<Library>): (names: seq<string>)
    ensures |names| == |libraries|
    ensures forall i :: 0 <= i < |libraries| ==> names[i] == libraries[i].name
  {
    seq(|libraries|, i requires 0 <= i < |libraries| => libraries[i].name)
  }

  /** Every library already has its collection file. */
  predicate AllSeeded(libraries: seq<Library>, env: RunEnv) {
    forall i :: 0 <= i < |libraries| ==> CollectionPath(env.collectionsDir, libraries[i].name) in env.collectionFiles
  }

  /** The list stage: find or create the list and, when a non-empty slug
      came back (Python truthiness), reconcile it with the sorted entries. */
  function ListStage(token: TokenRun, written: (seq<map<string, Overlay>>, seq<AiringEntry>), files: Files, env: RunEnv): (r: RunResult)
    ensures r.Completed? && r.token == token && r.overlays == written.0 && r.airing == written.1 && r.files == files
    ensures r.list == GetOrCreateList(ListName, env.listRounds)
    ensures r.update.Some? <==> r.list.Found? && r.list.slug != ""
    ensures r.update.Some? ==> r.update.value == UpdateList(env.listItems, SortByAirTime(written.1, env.airTime), env.listReplies)
    ensures r.update.Some? && env.listReplies == ListReplies(true, true, true) ==>
      ShowIds(r.update.value.after) == DesiredIds(SortByAirTime(written.1, env.airTime))
  {
    UpdatePublishes(env.listItems, SortByAirTime(written.1, env.airTime), env.listReplies);
    var list := GetOrCreateList(ListName, env.listRounds);
    var update :=
      if list.Found? && list.slug != "" then Some(UpdateList(env.listItems, SortByAirTime(written.1, env.airTime), env.listReplies))
      else None;
    Completed(token, written.0, written.1, files, list, update)
  }

  /** The main block of the script as written: the seeding `KeyError`
      ends the run before the list is looked up. */
  function Run(libraries: seq<Library>, env: RunEnv): (r: RunResult)
    requires CoversColorKeys(env.config.colors)
    ensures r.Stopped? <==> !GetToken(env.credentials, env.auth).outcome.Issued?
    ensures !r.Stopped? ==>
      && r.token == GetToken(env.credentials, env.auth)
      && r.overlays == WriteLibraries(libraries, env.remote, env.config).0
      && r.airing == WriteLibraries(libraries, env.remote, env.config).1
    ensures r.Crashed? ==> r.key == "config"
    ensures r.Completed? ==> r.files == env.collectionFiles
  {
    var token := GetToken(env.credentials, env.auth);
    if !token.outcome.Issued? then Stopped(token)
    else
      var written := WriteLibraries(libraries, env.remote, env.config);
      var seeded := EnsureCollectionsAsWritten(env.collectionsDir, LibraryNames(libraries), env.collectionFiles);
      if seeded.keyError.Some? then
        MissingFieldIsConfig();
        Crashed(token, written.0, written.1, seeded.files, seeded.keyError.value)
      else
        AsWrittenUnchangedUnlessError(env.collectionsDir, LibraryNames(libraries), env.collectionFiles);
        ListStage(token, written, seeded.files, env)
  }

  /** The main block with the corrected seeding, which never raises. */
  function RunCorrected(libraries: seq<Library>, env: RunEnv): (r: RunResult)
    requires CoversColorKeys(env.config.colors)
    ensures r.Stopped? <==> !GetToken(env.credentials, env.auth).outcome.Issued?
    ensures !r.Crashed?
    ensures r.Completed? ==> forall i :: 0 <= i < |libraries| ==> CollectionPath(env.collectionsDir, libraries[i].name) in r.files
  {
    var token := GetToken(env.credentials, env.auth);
    if !token.outcome.Issued? then Stopped(token)
    else
      var written := WriteLibraries(libraries, env.remote, env.config);
      var names := LibraryNames(libraries);
      EnsureCollectionsSeeds(env.collectionsDir, names, env.collectionFiles);
      ListStage(token, written, EnsureCollections(env.collectionsDir, names, env.collectionFiles), env)
  }

  /** A run that obtains a token, finds every collection file in place and
      finds the list, and whose list requests all succeed, writes one
      descriptor per library and leaves on the list exactly the tracking ids
      of all accumulated airing entries, ordered by air time. */
  lemma RunPublishesSortedAiring(libraries: seq<Library>, env: RunEnv)
    requires CoversColorKeys(env.config.colors)
    requires GetToken(env.credentials, env.auth).outcome.Issued?
    requires AllSeeded(libraries, env)
    requires GetOrCreateList(ListName, env.listRounds).Found?
    requires GetOrCreateList(ListName, env.listRounds).slug != ""
    requires env.listReplies == ListReplies(true, true, true)
    ensures var r := Run(libraries, env);
      && r.Completed?
      && |r.overlays| == |libraries|
      && r.files == env.collectionFiles
      && r.update.Some?
      && exists published ::
           && ShowIds(r.update.value.after) == DesiredIds(published)
           && SortedByAirTime(published, env.airTime)
           && multiset(published) == multiset(r.airing)
           && (forall t :: AiringAt(published, env.airTime, t) == AiringAt(r.airing, env.airTime, t))
  {
    var names := LibraryNames(libraries);
    AsWrittenNoOpWhenPresent(env.collectionsDir, names, env.collectionFiles);
    var r := Run(libraries, env);
    var published := SortByAirTime(r.airing, env.airTime);
    SortIsStableAscending(r.airing, env.airTime);
    ListEqualsDesired(env.listItems, published, env.listReplies);
  }

  /** The corrected run publishes the same list whether or not the
      collection files were already in place, and leaves a file for every
      library. */
  lemma RunCorrectedPublishesSortedAiring(libraries: seq<Library>, env: RunEnv)
    requires CoversColorKeys(env.config.colors)
    requires GetToken(env.credentials, env.auth).outcome.Issued?
    requires GetOrCreateList(ListName, env.listRounds).Found?
    requires GetOrCreateList(ListName, env.listRounds).slug != ""
    requires env.listReplies == ListReplies(true, true, true)
    ensures var r := RunCorrected(libraries, env);
      && r.Completed?
      && |r.overlays| == |libraries|
      && r.update.Some?
      && exists published ::
           && ShowIds(r.update.value.after) == DesiredIds(published)
           && SortedByAirTime(published, env.airTime)
           && multiset(published) == multiset(r.airing)
           && (forall t :: AiringAt(published, env.airTime, t) == AiringAt(r.airing, env.airTime, t))
  {
    var r := RunCorrected(libraries, env);
    var published := SortByAirTime(r.airing, env.airTime);
    SortIsStableAscending(r.airing, env.airTime);
    ListEqualsDesired(env.listItems, published, env.listReplies);
  }

  /** The stages of the run as written: it stops without a token; with
      one, it crashes exactly when some library lacks its collection file,
      leaving the first such file empty and every other file as it was;
      otherwise the list is reconciled exactly
      when a non-empty slug came back. */
  lemma RunStages(libraries: seq<Library>, env: RunEnv)
    requires CoversColorKeys(env.config.colors)
    ensures var r := Run(libraries, env);
      && (r.Stopped? <==> !GetToken(env.credentials, env.auth).outcome.Issued?)
      && (r.Crashed? <==> GetToken(env.credentials, env.auth).outcome.Issued? && !AllSeeded(libraries, env))
      && (r.Crashed? ==> exists k ::
            && FirstMissingAt(env.collectionsDir, LibraryNames(libraries), env.collectionFiles, k)
            && r.files == env.collectionFiles[CollectionPath(env.collectionsDir, libraries[k].name) := Empty])
      && (r.Completed? ==> (r.update.Some? <==> r.list.Found? && r.list.slug != ""))
  {
    var names := LibraryNames(libraries);
    if GetToken(env.credentials, env.auth).outcome.Issued? {
      if AllSeeded(libraries, env) {
        AsWrittenNoOpWhenPresent(env.collectionsDir, names, env.collectionFiles);
      } else {
        var k := FirstMissing(env.collectionsDir, names, env.collectionFiles, 0).value;
        AsWrittenLeavesEmptyFile(env.collectionsDir, names, env.collectionFiles, k);
      }
    }
  }
}

=== FILE: text.dfy ===
/** The handful of Python string operations the synchroniser relies on:
    `str.lower`, `str.upper`, `str.replace` of one character, the `in`
    substring test, `s.split(sep)[1]`, `os.path.join` and the truthiness
    of an optional string. */
module Text {
  import opened Wrappers

  /** Lower-casing of one character, restricted to ASCII letters. */
  function LowerChar(c: char): char {
    if 'A' <= c <= 'Z' then (c as int + 32) as char else c
  }

  /** Upper-casing of one character, restricted to ASCII letters. */
  function UpperChar(c: char): char {
    if 'a' <= c <= 'z' then (c as int - 32) as char else c
  }

  /** `s.lower()`: no upper-case ASCII letter survives, every other character stays. */
  function Lower(s: string): (r: string)
    ensures |r| == |s|
    ensures forall i :: 0 <= i < |r| ==> !('A' <= r[i] <= 'Z')
    ensures forall i :: 0 <= i < |s| && !('A' <= s[i] <= 'Z') ==> r[i] == s[i]
    ensures forall i :: 0 <= i < |s| && 'A' <= s[i] <= 'Z' ==> r[i] == (s[i] as int + 32) as char
  {
    seq(|s|, i requires 0 <= i < |s| => LowerChar(s[i]))
  }

  /** `s.upper()`: no lower-case ASCII letter survives, every other character stays. */
  function Upper(s: string): (r: string)
    ensures |r| == |s|
    ensures forall i :: 0 <= i < |r| ==> !('a' <= r[i] <= 'z')
    ensures forall i :: 0 <= i < |s| && !('a' <= s[i] <= 'z') ==> r[i] == s[i]
    ensures forall i :: 0 <= i < |s| && 'a' <= s[i] <= 'z' ==> r[i] == (s[i] as int - 32) as char
  {
    seq(|s|, i requires 0 <= i < |s| => UpperChar(s[i]))
  }

  /** `s.replace(a, b)` for single characters `a` and `b`. */
  function ReplaceChar(s: string, a: char, b: char): (r: string)
    ensures |r| == |s|
    ensures a != b ==> forall i :: 0 <= i < |r| ==> r[i] != a
    ensures forall i :: 0 <= i < |s| && s[i] != a ==> r[i] == s[i]
    ensures forall i :: 0 <= i < |s| && s[i] == a ==> r[i] == b
  {
    seq(|s|, i requires 0 <= i < |s| => if s[i] == a then b else s[i])
  }

  /** Python truthiness of an optional string field. */
  predicate Truthy(s: Option<string>) {
    s.Some? && s.value != ""
  }

  /** `pat` occurs in `s` starting at index `i`. */
  predicate OccursAt(s: string, pat: string, i: nat) {
    i + |pat| <= |s| && s[i..i + |pat|] == pat
  }

  /** The first index at or after `from` where `pat` occurs (`s.find(pat, from)`). */
  function IndexFrom(s: string, pat: string, from: nat): (r: Option<nat>)
    decreases |s| - from
    ensures r.Some? ==> from <= r.value && OccursAt(s, pat, r.value)
    ensures r.Some? ==> forall k: nat :: from <= k < r.value ==> !OccursAt(s, pat, k)
    ensures r.None? ==> forall k: nat :: from <= k ==> !OccursAt(s, pat, k)
  {
    if from + |pat| > |s| then None
    else if s[from..from + |pat|] == pat then Some(from)
    else IndexFrom(s, pat, from + 1)
  }

  /** Python's `pat in s`. */
  predicate Contains(s: string, pat: string) {
    IndexFrom(s, pat, 0).Some?
  }

  lemma ContainsMeansOccurs(s: string, pat: string)
    ensures Contains(s, pat) <==> exists k: nat :: OccursAt(s, pat, k)
  {
    if !Contains(s, pat) {
      assert forall k: nat :: !OccursAt(s, pat, k);
    }
  }

  /** `s.startswith(p)`. */
  predicate StartsWith(s: string, p: string) {
    |p| <= |s| && s[..|p|] == p
  }

  /** No occurrence of `pat` in `s` starts at an index in `[from, to)`. */
  predicate NoOccurrenceIn(s: string, pat: string, from: nat, to: nat) {
    forall j: nat :: from <= j < to ==> !OccursAt(s, pat, j)
  }

  /** The text after an occurrence of `sep` at `i`, up to the next
      occurrence or the end of `s`. */
  function FieldAfter(s: string, sep: string, i: nat): string
    requires i + |sep| <= |s|
  {
    var rest := s[i + |sep|..];
    match IndexFrom(rest, sep, 0)
    case Some(n) => rest[..n]
    case None => rest
  }

  /** The field after `i` follows the separator, holds no separator, and
      ends at the next separator or at the end of `s`. */
  lemma FieldAfterFacts(s: string, sep: string, i: nat)
    requires i + |sep| <= |s|
    ensures var f := FieldAfter(s, sep, i);
      && StartsWith(s[i + |sep|..], f)
      && NoOccurrenceIn(s, sep, i + |sep|, i + |sep| + |f|)
      && (|f| == |s| - i - |sep| || OccursAt(s, sep, i + |sep| + |f|))
  {
    var rest := s[i + |sep|..];
    var f := FieldAfter(s, sep, i);
    var next := IndexFrom(rest, sep, 0);
    if next.Some? {
      SuffixOccurs(s, i + |sep|, sep, next.value);
    }
    forall j: nat | i + |sep| <= j < i + |sep| + |f|
      ensures !OccursAt(s, sep, j)
    {
      var k := j - i - |sep|;
      assert !OccursAt(rest, sep, k);
      SuffixOccursIff(s, i + |sep|, sep, k);
    }
  }

  /** `s.split(sep)[1]`: the text between the first and the second
      occurrence of `sep` (or the end of `s`); `None` where Python raises
      `IndexError` because `sep` does not occur. */
  function SecondField(s: string, sep: string): (r: Option<string>)
    requires |sep| > 0
    ensures r.None? <==> !Contains(s, sep)
    ensures r.Some? ==> exists i: nat ::
      && OccursAt(s, sep, i)
      && (forall k: nat :: k < i ==> !OccursAt(s, sep, k))
      && StartsWith(s[i + |sep|..], r.value)
      && NoOccurrenceIn(s, sep, i + |sep|, i + |sep| + |r.value|)
      && (|r.value| == |s| - i - |sep| || OccursAt(s, sep, i + |sep| + |r.value|))
  {
    match IndexFrom(s, sep, 0)
    case None => None
    case Some(i) =>
      FieldAfterFacts(s, sep, i);
      Some(FieldAfter(s, sep, i))
  }

  /** An occurrence in a suffix is exactly an occurrence in the whole, shifted. */
  lemma SuffixOccursIff(t: string, off: nat, pat: string, k: nat)
    requires off <= |t|
    ensures OccursAt(t[off..], pat, k) <==> OccursAt(t, pat, off + k)
  {
    if off + k + |pat| <= |t| {
      assert t[off..][k..k + |pat|] == t[off + k..off + k + |pat|];
    }
  }

  /** An occurrence inside a suffix is an occurrence in the whole, shifted. */
  lemma SuffixOccurs(t: string, off: nat, pat: string, k: nat)
    requires off <= |t| && OccursAt(t[off..], pat, k)
    ensures OccursAt(t, pat, off + k)
  {
    assert t[off..][k..k + |pat|] == t[off + k..off + k + |pat|];
  }

  /** `os.path.join(dir, name)` on POSIX for two components: an absolute
      `name` discards `dir`; otherwise a `/` is inserted unless `dir` is
      empty or already ends with one. */
  function JoinPath(dir: string, name: string): (r: string)
    ensures StartsWith(name, "/") ==> r == name
    ensures !StartsWith(name, "/") && (dir == "" || dir[|dir| - 1] == '/') ==> r == dir + name
    ensures !StartsWith(name, "/") && dir != "" && dir[|dir| - 1] != '/' ==> r == dir + "/" + name
    ensures StartsWith(r, "/") <==> StartsWith(name, "/") || StartsWith(dir, "/")
  {
    if StartsWith(name, "/") then name
    else if dir == "" || dir[|dir| - 1] == '/' then dir + name
    else dir + "/" + name
  }
}

=== FILE: token_manager.dfy ===
/** The tracking-service credential lifecycle (`get_trakt_token`): a tiny
    state machine whose state is the credential file (absent, or holding
    one credential record) and whose transitions are the interactive
    authorisation, the refresh exchange, and "delete the file and start
    again". Clock readings and the two token-endpoint responses are
    parameters. */
module TokenManager {
  import opened Wrappers
  import opened Text

  /** Seconds before the recorded expiry at which a token is already treated as expired. */
  const ExpiryBuffer: int := 600

  /** The JSON record kept in the credential file, or returned by the token
      endpoint; every field may be missing. */
  datatype Credential = Credential(
    accessToken: Option<string>,
    refreshToken: Option<string>,
    createdAt: Option<int>,
    expiresIn: Option<int>)

  /** What the environment answers during one call.
      `clock` is `time.time()` read before the expiry test; `authClock` is
      the later reading used to stamp a freshly authorised credential.
      `authResponse` / `refreshResponse` are the JSON bodies of a 200 reply
      from the token endpoint, `None` for any other status. */
  datatype AuthEnv = AuthEnv(
    clock: real,
    authClock: real,
    authResponse: Option<Credential>,
    refreshResponse: Option<Credential>)

  /** Observable side effects, in the order they happen. */
  datatype Effect =
    | PromptForCode                 // print the URL, read the code, post it
    | RequestRefresh                // post the stored refresh token
    | WriteCredential(c: Credential)
    | DeleteCredential

  datatype TokenOutcome =
    | Issued(accessToken: string)
    | AuthorisationFailed           // `exit(1)`
    | NoAccessToken                 // `KeyError` on `token_data['access_token']`

  datatype TokenRun = TokenRun(outcome: TokenOutcome, file: Option<Credential>, trace: seq<Effect>)

  /** Python's `int(x)` on a float: truncation toward zero. */
  function Truncate(x: real): (n: int)
    ensures 0.0 <= x ==> n as real <= x < n as real + 1.0
    ensures x < 0.0 ==> x <= n as real < x + 1.0 && n <= 0
  {
    if x >= 0.0 then x.Floor else -((-x).Floor)
  }

  /** The refresh token is usable when present and non-empty (Python truthiness). */
  predicate HasRefreshToken(c: Credential) {
    Truthy(c.refreshToken)
  }

  /** Both expiry fields are recorded and `now` is past `created_at + expires_in - 600`. */
  predicate Expiring(c: Credential, now: real) {
    && c.expiresIn.Some?
    && c.createdAt.Some?
    && now > (c.createdAt.value + c.expiresIn.value - ExpiryBuffer) as real
  }

  /** A credential as written to the file: `created_at` is added if missing. */
  function Stamp(c: Credential, now: int): (s: Credential)
    ensures c.createdAt.None? ==> s.createdAt == Some(now)
    ensures c.createdAt.Some? ==> s == c
    ensures s.accessToken == c.accessToken && s.refreshToken == c.refreshToken && s.expiresIn == c.expiresIn
  {
    if c.createdAt.Some? then c else c.(createdAt := Some(now))
  }

  /** Reading `['access_token']` out of a record. */
  function Deliver(c: Credential): (o: TokenOutcome)
    ensures o.Issued? <==> c.accessToken.Some?
    ensures o.Issued? ==> o.accessToken == c.accessToken.value
    ensures !o.AuthorisationFailed?
  {
    match c.accessToken
    case Some(t) => Issued(t)
    case None => NoAccessToken
  }

  /** The no-file branch: interactive authorisation-code exchange. */
  function Authorise(env: AuthEnv): (r: TokenRun)
    ensures |r.trace| > 0 && r.trace[0] == PromptForCode
    ensures Count(r.trace, PromptForCode) == 1
    ensures Count(r.trace, DeleteCredential) == 0 && Count(r.trace, RequestRefresh) == 0
    ensures r.outcome.AuthorisationFailed? <==> env.authResponse.None?
    ensures r.outcome.AuthorisationFailed? ==> r.file.None? && r.trace == [PromptForCode]
    ensures !r.outcome.AuthorisationFailed? ==> r.file.Some? && r.trace == [PromptForCode, WriteCredential(r.file.value)]
    ensures env.authResponse.Some? ==>
      && r.file == Some(Stamp(env.authResponse.value, Truncate(env.authClock)))
      && r.outcome == Deliver(r.file.value)
  {
    match env.authResponse
    case None => TokenRun(AuthorisationFailed, None, [PromptForCode])
    case Some(resp) =>
      var stored := Stamp(resp, Truncate(env.authClock));
      var t := [PromptForCode, WriteCredential(stored)];
      assert t[1..][1..] == [];
      TokenRun(Deliver(stored), Some(stored), t)
  }

  /** `get_trakt_token`. The re-entry after deleting the file is made on an
      absent file, so the measure (1 while a file exists, 0 otherwise)
      strictly decreases and at most one re-entry ever happens. */
  function GetToken(file: Option<Credential>, env: AuthEnv): (r: TokenRun)
    decreases if file.Some? then 1 else 0
    ensures r.outcome.Issued? ==> r.file.Some? && r.file.value.accessToken == Some(r.outcome.accessToken)
    ensures r.outcome.AuthorisationFailed? ==> r.file.None?
    ensures Count(r.trace, PromptForCode) <= 1
  {
    match file
    case None => Authorise(env)
    case Some(c) =>
      if Expiring(c, env.clock) then
        if HasRefreshToken(c) then
          match env.refreshResponse
          case Some(resp) =>
            var stored := Stamp(resp, Truncate(env.clock));
            var t := [RequestRefresh, WriteCredential(stored)];
            assert t[1..][1..] == [];
            assert Count(t[1..], PromptForCode) == 0;
            TokenRun(Deliver(stored), Some(stored), t)
          case None =>
            var again := GetToken(None, env);
            again.(trace := [RequestRefresh, DeleteCredential] + again.trace)
        else
          var again := GetToken(None, env);
          again.(trace := [DeleteCredential] + again.trace)
      else
        TokenRun(Deliver(c), file, [])
  }

  /** Number of occurrences of `e` in `t`. */
  function Count(t: seq<Effect>, e: Effect): nat {
    if t == [] then 0 else (if t[0] == e then 1 else 0) + Count(t[1..], e)
  }

  /** The refresh exchange is attempted exactly when a credential file
      exists, both expiry fields are present, the clock is strictly past
      `created_at + expires_in - 600`, and a non-empty refresh token is stored. */
  lemma RefreshAttemptedIff(file: Option<Credential>, env: AuthEnv)
    ensures RequestRefresh in GetToken(file, env).trace <==>
      && file.Some?
      && file.value.expiresIn.Some? && file.value.createdAt.Some?
      && env.clock > (file.value.createdAt.value + file.value.expiresIn.value - 600) as real
      && file.value.refreshToken.Some? && file.value.refreshToken.value != ""
  {
  }

  /** Without both expiry fields, or before the buffered expiry, the stored
      access token is returned unchanged and nothing is written, deleted or
      requested. */
  lemma StoredTokenKept(c: Credential, env: AuthEnv)
    requires c.expiresIn.None? || c.createdAt.None?
          || env.clock <= (c.createdAt.value + c.expiresIn.value - 600) as real
    ensures GetToken(Some(c), env).file == Some(c)
    ensures GetToken(Some(c), env).trace == []
    ensures c.accessToken.Some? ==> GetToken(Some(c), env).outcome == Issued(c.accessToken.value)
  {
  }

  /** A failed refresh, or a missing refresh token, deletes the credential
      file and is followed by exactly one interactive authorisation; the
      re-entry never reaches the refresh branch again. */
  lemma ReauthorisedOnce(c: Credential, env: AuthEnv)
    requires Expiring(c, env.clock)
    requires !HasRefreshToken(c) || env.refreshResponse.None?
    ensures var r := GetToken(Some(c), env);
      && Count(r.trace, DeleteCredential) == 1
      && Count(r.trace, PromptForCode) == 1
      && Count(r.trace, RequestRefresh) <= 1
      && (exists i, j :: 0 <= i < j < |r.trace| && r.trace[i] == DeleteCredential && r.trace[j] == PromptForCode)
      && r == GetToken(None, env).(trace := r.trace)
  {
    var r := GetToken(Some(c), env);
    var a := Authorise(env);
    assert GetToken(None, env) == a;
    CountPrefixed([DeleteCredential], a.trace, DeleteCredential);
    CountPrefixed([DeleteCredential], a.trace, PromptForCode);
    CountPrefixed([RequestRefresh, DeleteCredential], a.trace, DeleteCredential);
    CountPrefixed([RequestRefresh, DeleteCredential], a.trace, PromptForCode);
    CountPrefixed([RequestRefresh, DeleteCredential], a.trace, RequestRefresh);
    CountPrefixed([DeleteCredential], a.trace, RequestRefresh);
    if HasRefreshToken(c) {
      assert r.trace == [RequestRefresh, DeleteCredential] + a.trace;
      assert r.trace[1] == DeleteCredential && r.trace[2] == PromptForCode;
    } else {
      assert r.trace == [DeleteCredential] + a.trace;
      assert r.trace[0] == DeleteCredential && r.trace[1] == PromptForCode;
    }
  }

  lemma {:induction false} CountPrefixed(p: seq<Effect>, t: seq<Effect>, e: Effect)
    ensures Count(p + t, e) == Count(p, e) + Count(t, e)
    decreases |p|
  {
    if p == [] {
      assert p + t == t;
    } else {
      assert (p + t)[1..] == p[1..] + t;
      CountPrefixed(p[1..], t, e);
    }
  }

  /** Worked case: with `created_at = t0` and
      `expires_in = 3600` the token is judged expired exactly when the clock
      is past `t0 + 3000`. */
  lemma HourLongTokenExpiry(c: Credential, t0: int, now: real)
    requires c.createdAt == Some(t0) && c.expiresIn == Some(3600)
    ensures Expiring(c, now) <==> now > (t0 + 3000) as real
  {
  }

  /** A successful refresh stores the endpoint's reply, stamped with the
      truncated clock reading when it lacks `created_at`, and issues that
      reply's access token; the stored credential is replaced, not deleted. */
  lemma RefreshStoresResponse(c: Credential, env: AuthEnv)
    requires Expiring(c, env.clock) && HasRefreshToken(c) && env.refreshResponse.Some?
    ensures var r := GetToken(Some(c), env);
      var stored := Stamp(env.refreshResponse.value, Truncate(env.clock));
      && r.file == Some(stored)
      && r.trace == [RequestRefresh, WriteCredential(stored)]
      && (stored.accessToken.Some? ==> r.outcome == Issued(stored.accessToken.value))
      && (stored.accessToken.None? ==> r.outcome == NoAccessToken)
  {
  }

  /** A credential stamped by the same clock reading that tests it, and
      valid for more than the buffer, is not due for refresh: a run that
      just refreshed is followed by a run that reuses the stored token. */
  lemma FreshlyStampedNotExpiring(resp: Credential, now: real)
    requires resp.createdAt.None?
    requires resp.expiresIn.Some? && resp.expiresIn.value > ExpiryBuffer
    ensures !Expiring(Stamp(resp, Truncate(now)), now)
  {
  }
}

=== FILE: wrappers.dfy ===
/** Optional values, standing in for Python's `None` and for absent
    dictionary keys throughout the model. */
module Wrappers {

  datatype Option<+T> = None | Some(value: T) {

    /** The value held, or `default` when there is none (Python's `dict.get(k, default)`). */
    function GetOr(default: T): T {
      match this
      case Some(v) => v
      case None => default
    }
  }
}
